=== FILE: README.md ===
# catjazz core, modelled in Dafny

catjazz is a set of Deno/TypeScript tools that migrate, query and dump the
JSON data files of Cataclysm: Bright Nights. This project models its pure
core and proves properties about it:

- the legacy-unit converters, in both `units/` and the older `utils/units.ts`:
  weight, volume, currency and energy, with their `^\d+ unit$` validators;
- flag inheritance: `resolveFlags` and `maybeAdd`;
- reading the data tree: `parseCataJson`, the ordered match of `readJSONRec`,
  the walk filter, and `readJSONsRec`;
- the two schema policies: `schemaTransformer`, with the deep merge it
  relies on, and `schemaFilter`;
- the migration driver's per-file guard against map-generation files
  (`utils/cli.ts`);
- querying: per-file error isolation, the output choice, and the
  mutation-flag listing (`utils/query.ts`);
- the `replace_with` and `dump` tools;
- three concrete schemas: field rewrites, damage merging, and the calorie
  query with its stable descending sort and row limit.

JSON values are the datatype `JsonValue.Json`. Integers are unbounded;
objects are maps, so key order is not modelled. Code that the core calls but
that lies outside it becomes a function parameter:

- a zod schema's `safeParse` becomes `Json -> Option<T>`;
- `JSON.parse` becomes `string -> Option<Json>` (None where it throws);
- `JSON.stringify` becomes `Json -> string`;
- the file system (stat, walk, read) becomes the `Parse.FileSystem` datatype
  of functions.

A write is modelled as the value that would be written, paired with its
path. Every module is pure: the source changes no state in place apart from
the files it writes.

The model follows the code wherever its behaviour is surprising:

- `units/weight.ts` gives "0 kg" for zero, although the canonical
  smallest-tier form would be "0 g".
- `utils/units.ts` gives "0 L" and "0 kUSD" for zero, where `units/` gives
  "0 ml" and "0 cent".
- The migration driver re-serialises every file as an array, so a file that
  holds a single object comes back as a one-element array.
- `readJSONRec` calls `Deno.stat` before its match. A missing path therefore
  fails with "not found" before the reserved-name test runs.
- The damage merge fires whenever both `damage` and `pierce` are present,
  whatever they hold. The pattern spreads the entry over its `P.number`
  wildcards, and this overrides them.
- At the top level `deepMerge` always builds a fresh object. Through
  `schemaTransformer`, an accepted number therefore becomes `{}`, an accepted
  string an object of its characters, and an accepted null throws.
- Through `schemaTransformer`, a schema cannot delete keys, because the deep
  merge keeps every key of the entry. The `pierce` removed by the damage
  merge therefore survives.
- For negative legacy numbers the converters give signed strings that their
  own validators reject. This assumes that ts-pattern compares literal
  patterns with `Object.is`, so that a remainder of -0 does not match the
  pattern 0. Legacy volume −4 is therefore "-1000 ml" in `utils/units.ts`,
  whose test is the pattern 0, and "-1 L" in `units/volume.ts`, whose test
  is `=== 0`.

## Model

| member | source | states |
|---|---|---|
| UnitFormat.AcceptsIffParses | units/weight.ts:4 | a string passes a `^\d+ (units)$` validator iff it splits at its first space into digits and one of the units |
| UnitFormat.ParseRender | units/weight.ts:15-16 | reading `${m} ${unit}` back gives exactly m and unit |
| UnitFormat.RenderAccepted | units/weight.ts:4 | a rendered value passes the validator of any unit set holding its unit |
| UnitFormat.QuantityOfRender | units/weight.ts:15-16 | a rendered value denotes m times the unit's size in the smallest unit |
| Weight.IsWeightIffParses | units/weight.ts:4 | a string is a valid weight iff it is digits, one space and mg, g or kg |
| Volume.IsVolumeIffParses | units/volume.ts:4 | a string is a valid volume iff it is digits, one space and ml or L |
| Currency.IsCurrencyIffParses | units/currency.ts:4-6 | a string is a valid currency amount iff it is digits, one space and cent, USD or kUSD |
| Energy.IsEnergyIffParses | units/energy.ts:3 | a string is a valid energy iff it is digits, one space and mJ, J or kJ |
| LegacyUnits.ValidatorsIffParse | utils/units.ts:4-34 | each older validator accepts a string iff it is digits, one space and one of its units |
| UnitFormat.CanonicalTier | units/currency.ts:19-23 | reference definition of the largest-unit-that-divides rule: the tier is in range, is the first tier at zero, divides the amount, and no larger tier divides it |
| Weight.FromLegacyWeight | units/weight.ts:13-16 | result passes the weight validator, denotes g·1000 mg, and is kg exactly when 1000 divides g, grams otherwise |
| Weight.ExampleKilograms | units/weight.ts:13-16 | 2000 is "2 kg" |
| Weight.ExampleGrams | units/weight.ts:13-16 | 1500 is "1500 g" |
| Weight.ExampleZero | units/weight.ts:13-16 | 0 is "0 kg", because zero passes the kg test |
| Weight.IsCanonicalAwayFromZero | units/weight.ts:13-16 | for g ≠ 0 the result is the canonical form over g, kg; at 0 it differs from the canonical "0 g" |
| Volume.FromLegacyVolume | units/volume.ts:16-20 | result passes the volume validator, denotes 250·x ml, is "0 ml" at zero, litres exactly when 4 divides x |
| Volume.MultipleOfLitre | units/volume.ts:19 | 250·x is a whole number of litres iff 4 divides x, and is then x/4 litres |
| Volume.ExampleZero | units/volume.ts:16-20 | 0 is "0 ml" |
| Volume.ExampleLitre | units/volume.ts:16-20 | 4 is "1 L" |
| Volume.ExampleMillilitres | units/volume.ts:16-20 | 3 is "750 ml" |
| Volume.IsCanonical | units/volume.ts:16-20 | the result is the canonical form of 250·x over ml, L, zero included |
| Currency.FromLegacyCurrency | units/currency.ts:18-23 | result passes the currency validator, denotes c cents, is "0 cent" at zero, and is kUSD, USD or cent by the first unit that divides |
| Currency.ExampleZero | units/currency.ts:18-23 | 0 is "0 cent" |
| Currency.ExampleKusd | units/currency.ts:18-23 | kUSD is tried before USD: 100000 is "1 kUSD", never "1000 USD" |
| Currency.ExampleUsd | units/currency.ts:18-23 | 200 is "2 USD" |
| Currency.ExampleCent | units/currency.ts:18-23 | 150 is "150 cent" |
| Currency.IsCanonical | units/currency.ts:18-23 | the result is the canonical form over cent, USD, kUSD for every input |
| Energy.FromLegacyEnergy | units/energy.ts:13 | result passes the energy validator, reads back as kj kJ, and denotes kj·10⁶ mJ |
| LegacyUnits.FromLegacyWeight | utils/units.ts:17-20 | for g ≥ 0 the result passes the weight validator, denotes g·1000 mg, and is kg exactly when 1000 divides g; for g < 0 it is the signed gram string, which the validator rejects |
| LegacyUnits.FromLegacyVolume | utils/units.ts:27-32 | for x ≥ 0 the result passes the volume validator, denotes 250·x ml, and is litres exactly when 4 divides x (zero included); for x < 0 it is the signed millilitre string, whole litres included, which the validator rejects |
| LegacyUnits.FromLegacyCurrency | utils/units.ts:46-50 | for c ≥ 0 the result passes the currency validator, denotes c cents, and is kUSD, USD or cent by the first unit that divides; for c < 0 the same unit choice with a sign, which the validator rejects |
| LegacyUnits.NegativeCurrency | utils/units.ts:46-50 | a negative amount takes the first unit that divides it, because `===` equates -0 with 0, and is rejected by the validator |
| LegacyUnits.ExampleNegativeWeight | utils/units.ts:18-20 | −2000 is "−2000 g": the remainder -0 misses the pattern 0 |
| LegacyUnits.ExampleNegativeVolume | utils/units.ts:29-31 | −4 is "−1000 ml": whole litres are not recognised below zero |
| LegacyUnits.ExampleNegativeCurrency | utils/units.ts:48-49 | −200 is "−2 USD" |
| LegacyUnits.ValidatorsAgree | utils/units.ts:4-34 | the older validators accept exactly the strings the `units/` validators accept |
| LegacyUnits.WeightAgrees | utils/units.ts:17-20 | the two weight converters agree on every input |
| LegacyUnits.VolumeAgreesAwayFromZero | utils/units.ts:27-32 | the two volume converters agree except at zero, "0 L" against "0 ml" |
| LegacyUnits.CurrencyAgreesAwayFromZero | utils/units.ts:46-50 | the two currency converters agree except at zero, "0 kUSD" against "0 cent" |
| ResolveFlags.Lookup | utils/inherit/resolve_flags.ts:21 | `flags?.[key]` is present iff the flags and the key are, and is the flag list |
| ResolveFlags.Without | utils/inherit/resolve_flags.ts:9 | the filtered list holds exactly the elements of xs not in del, and is no longer |
| ResolveFlags.WithoutAppend | utils/inherit/resolve_flags.ts:9 | deletion keeps order: it distributes over concatenation |
| ResolveFlags.WithoutNone | utils/inherit/resolve_flags.ts:9 | a list with nothing to delete survives whole |
| ResolveFlags.ExtendThenDelete | utils/inherit/resolve_flags.ts:8-11 | the result is the input with the deleted flags filtered out, in input order, followed by the extension in its own order |
| ResolveFlags.NoDeduplication | utils/inherit/resolve_flags.ts:10 | extending with a flag already present duplicates it |
| ResolveFlags.Injected | utils/inherit/resolve_flags.ts:26 | extend injects exactly the keys whose entry value is absent or falsy, as the extension list |
| ResolveFlags.ResolveFlags | utils/inherit/resolve_flags.ts:14-27 | keys are the entry's plus, with extend, its falsy-or-absent extend keys; flag fields are extended-then-deleted; other truthy fields and fields without extend are unchanged; injected keys hold the extension |
| ResolveFlags.ExampleDeletions | utils/inherit/resolve_flags_test.ts:4-19 | the per-field results of the "delete flags" test |
| ResolveFlags.ExampleFieldA | utils/inherit/resolve_flags_test.ts:14-15 | field a of the "delete flags" test loses "A" |
| ResolveFlags.ExampleFieldB | utils/inherit/resolve_flags_test.ts:14-15 | field b of the "delete flags" test keeps both flags |
| ResolveFlags.ExampleKeys | utils/inherit/resolve_flags_test.ts:16-17 | the result's keys are the entry's plus the injected d |
| ResolveFlags.ExampleOtherFields | utils/inherit/resolve_flags_test.ts:16-17 | c passes through and d is injected from extend |
| ResolveFlags.DeleteFlagsExample | utils/inherit/resolve_flags_test.ts:4-19 | the whole "delete flags" test result |
| MaybeAdd.MaybeAdd | utils/inherit/maybe_add.ts:14-15 | the result has at most the key field, has it iff x is non-empty, and then holds x |
| MaybeAdd.SpreadKeepsOtherKeys | utils/inherit/maybe_add.ts:4-12 | spreading the result over a base changes no other key of the base |
| MaybeAdd.DocExamples | utils/inherit/maybe_add.ts:8-11 | the doc comment's three examples |
| Parse.ParseCataJson | utils/parse.ts:15-19 | fails iff `JSON.parse` fails; an array is its items, anything else a one-element list |
| Parse.Normalise | utils/parse.ts:18 | arrays are their items, any other value a one-element list of itself |
| Parse.StripTrailingSlashes | utils/parse.ts:46 | the result is the path with its trailing '/' characters, and only those, removed |
| Parse.LastSegment | utils/parse.ts:46 | the result is the longest suffix of the path without a '/': it ends the path and is the whole path or follows a '/' |
| Parse.ReservedNames | utils/parse.ts:21 | default.json and replacements.json are rejected; other names, near misses included, are accepted |
| Parse.Basename | utils/parse.ts:46 | the result is the last '/'-free segment of the path once trailing slashes are stripped |
| Parse.BasenameOfJoin | utils/parse.ts:46 | the basename of dir/name is name |
| Parse.Classify | utils/parse.ts:44-56 | the ordered match: stat failure first, then a reserved basename, then a .json file is read, a directory walked, anything else rejected as neither; each outcome iff its condition |
| Parse.ReservedBeforeKind | utils/parse.ts:44-48 | a reserved name is rejected whatever kind of path it is |
| Parse.SelectWalked | utils/parse.ts:32-36 | a walked path is read iff it ends in .json and its name is not reserved |
| Parse.ToEntries | utils/parse.ts:23 | each path becomes an entry holding that path's text |
| Parse.ReadJsonRec | utils/parse.ts:44-56 | succeeds iff classification does; a file gives its one entry; a directory gives exactly the selected walked paths, each with its text |
| Parse.ReadJsonsRec | utils/parse.ts:61-64 | succeeds iff every path does; its entries are the paths' entries concatenated, so an entry read through two overlapping paths appears twice |
| Parse.Gather | utils/parse.ts:61-64 | combining per-path results succeeds iff each does, with their entries concatenated, duplicates kept |
| Transform.DeepMerge | utils/transform.ts:37 | the nested step, for the values two records hold under one key: two objects merge over the union of keys, left-only keys kept, right values win unless both sides are objects; otherwise the right side |
| Transform.Record | utils/transform.ts:37 | the own properties the merge reads: an object's fields, an array's items or a string's characters under their indices, none for numbers and booleans |
| Transform.MergeEntry | utils/transform.ts:37 | the top-level call throws iff a side is null; otherwise it is always a fresh object over the keys of both sides' properties, left-only values kept, right values winning unless both are objects; for two objects it is the nested merge |
| Transform.MergeNumberExample | utils/transform.ts:37 | a number merged with itself becomes `{}` |
| Transform.MergeStringExample | utils/transform.ts:37 | "ab" merged with itself becomes `{"0": "a", "1": "b"}` |
| Transform.MergeNullExample | utils/transform.ts:37 | a null entry makes the merge throw |
| Transform.NestedObjectsMerge | utils/transform.ts:37 | a key held on both sides merges recursively |
| Transform.DeepMergeSelf | utils/transform.ts:37 | merging a value with itself changes nothing |
| Transform.MergeOverSameKeys | utils/transform.ts:37 | a right side with all of the left's keys and no object-over-object change is the merge result |
| Transform.TransformEntry | utils/transform.ts:33-39 | rejected entries unchanged; throws iff accepted with a null entry or output; an accepted entry always comes out an object, and an object with an object output gets the union of keys, keeps keys the schema omits and takes the schema's non-object values |
| Transform.SchemaTransformer | utils/transform.ts:31-40 | throws iff some entry's merge does; otherwise same length, each entry transformed on its own |
| Transform.SchemaTransformerAppend | utils/transform.ts:31-40 | the transform distributes over concatenation of entry lists, failure included |
| Transform.IdentitySchema | utils/transform.ts:29 | with a schema that accepts everything unchanged, the transform throws iff some entry is null; otherwise each entry becomes the object of its own properties, so object entries stay as they are |
| Transform.IdentityOnAccepted | utils/transform.ts:29 | a schema that rejects each entry or accepts an object as itself leaves every entry as it is |
| Transform.Accepted | utils/transform.ts:48-51 | no more outputs than entries, each the output of some accepted entry |
| Transform.AcceptedAppend | utils/transform.ts:48-51 | filtering keeps order: it distributes over concatenation |
| Transform.AcceptedAll | utils/transform.ts:48-51 | when all are accepted, every output is kept in order |
| Transform.AcceptedNone | utils/transform.ts:48-51 | rejected entries are dropped without error |
| Transform.SchemaFilter | utils/transform.ts:45-52 | fails iff the text does not parse; otherwise the accepted outputs of the parsed entries |
| Cli.Unpack | utils/cli.ts:22-25 | paths pass through; entries become their paths, index by index |
| Cli.Ignore | utils/cli.ts:74-75 | finds an ignored-type entry iff one exists before any null entry; throws iff a null entry comes first; finds nothing iff no entry is null or ignored |
| Cli.MapgenIgnoringTransformer | utils/cli.ts:77-80 | fails iff parsing or the search throws, or the transform does on a file without ignored entries; a file with an ignored entry is returned verbatim; otherwise its transformed entries are serialised as an array |
| Cli.OneIgnoredEntryBlocksFile | utils/cli.ts:74-80 | one ignored entry, with no null before it, keeps the whole file unchanged |
| Cli.Noop | utils/cli.ts:99 | the "Do nothing" schema accepts exactly objects, as themselves |
| Cli.NoopRewritesEntries | utils/cli.ts:99-101 | the "Do nothing" script rewrites a file as the array of its own entries |
| Query.FileResult | utils/query.ts:52-60 | a file whose text does not parse contributes nothing; otherwise its accepted outputs |
| Query.QueryFiles | utils/query.ts:52-60 | every result comes from some file's filter result |
| Query.QueryFilesAppend | utils/query.ts:52-60 | querying distributes over concatenation of file lists |
| Query.MalformedFileIsSkipped | utils/query.ts:53-59 | a malformed file between others removes only its own contribution |
| Query.QueryOutcome | utils/query.ts:62-70 | nothing is output iff nothing matched; otherwise the results, mapped only when a map is supplied |
| Query.OutputText | utils/query.ts:74 | strings are written verbatim, anything else serialised |
| Query.ReportedCount | utils/query.ts:79 | an array reports its length, anything else 1 |
| Query.MutationFlagsSchema | utils/query.ts:85-90 | accepts exactly objects of type "mutation" with a string-array `flags`, giving that list |
| Query.Flat | utils/query.ts:101 | the flattened list holds exactly the array items and the non-array values |
| Query.FlatAppend | utils/query.ts:101 | flattening one level distributes over concatenation, so order is kept |
| Query.FlatSingle | utils/query.ts:101 | one array flattens to its items, one other value to itself |
| Query.Dedup | utils/query.ts:101 | the result has no repeats and holds exactly the input's elements |
| Query.DedupSnoc | utils/query.ts:101 | first occurrences win: appending an element adds it iff it is new |
| Query.MutationFlagEntries | utils/query.ts:100-105 | one mutation_flag entry per distinct flag, in first-occurrence order |
| Query.MutationFlagIdsDistinct | utils/query.ts:100-105 | the ids are pairwise distinct and every flag of every list has an entry |
| ReplaceWith.CataWithId | tools/replace_with.ts:16 | accepts exactly objects with a string id, kept whole |
| ReplaceWith.ParseIdsAsWritten | tools/replace_with.ts:20-24 | as written, only an empty file list gets through |
| ReplaceWith.ParseIdsAsWrittenThrows | tools/replace_with.ts:20-24 | as written, any non-empty file list throws |
| ReplaceWith.ParseIds | tools/replace_with.ts:20-24 | as intended: fails iff some text does not parse; each file keeps its path and all its parsed entries, id-less ones included |
| ReplaceWith.ParseFile | tools/replace_with.ts:22-23 | one file parses iff its text does, and then gives all its entries unchanged |
| ReplaceWith.WriteKeepsOtherEntries | tools/replace_with.ts:51-75 | with the repaired parse, the write goes to a read file's path with one entry per entry of that file, every entry without the id as it was |
| ReplaceWith.AnyWithId | tools/replace_with.ts:27 | `some` throws the destructuring `TypeError` iff a null comes before the first entry with the id; otherwise true iff some entry has it |
| ReplaceWith.FindId | tools/replace_with.ts:26-28 | throws iff a file scanned up to the first one holding the id meets a null before its hit; otherwise found iff some file holds the id, and then the first such file |
| ReplaceWith.FindFromEntry | tools/replace_with.ts:30-36 | throws the destructuring `TypeError` iff a null comes before the first entry with the id, "could not find id …" iff there is no null and no such entry, else the first entry that does |
| ReplaceWith.ReplaceWith | tools/replace_with.ts:39-47 | fails with `findFromEntry`'s error iff that throws on `using`, and otherwise with the `x.id` `TypeError` iff `replace` holds a null; otherwise same length, entries with the id replaced, others kept |
| ReplaceWith.NothingToReplace | tools/replace_with.ts:42-46 | with no entry to replace and no null, the list comes back unchanged |
| ReplaceWith.WriteReplaceWith | tools/replace_with.ts:51-75 | throws `findId`'s error on the replaced side, then on the using side; otherwise warns iff one side lacks the id, throws iff the replaced file holds a null, and else writes the replaced entries to the replaced file's path |
| ReplaceWith.NullBeforeHitThrows | tools/replace_with.ts:27 | a null-only replaced file scanned before the one with the id throws |
| ReplaceWith.NullInUsingThrows | tools/replace_with.ts:58-59 | a null in the using files ahead of the id throws |
| Dump.Dump | tools/dump.ts:55-67 | fails iff some file does not parse; otherwise all entries flattened in file order |
| Dump.EntriesAppend | tools/dump.ts:65 | dumping distributes over concatenation of file lists |
| Dump.OneBadFileFailsDump | tools/dump.ts:65 | one unparsable file fails the whole dump |
| Dump.GroupKey | tools/dump.ts:27 | throws iff the entry is null; a string type is its own key |
| Dump.OfGroup | tools/dump.ts:27 | a group holds exactly the entries with that key |
| Dump.Keys | tools/dump.ts:27 | the groups are exactly the keys some entry has |
| Dump.GroupByType | tools/dump.ts:27 | groups keyed by exactly the entries' keys, each entry in its own group, each group only entries of its key |
| Dump.OfGroupAppend | tools/dump.ts:27 | grouping keeps relative order: each group distributes over concatenation |
| Dump.OfGroupCount | tools/dump.ts:27 | the groups partition the input: an entry occurs in its own group as often as in the input, and in no other |
| Dump.DumpWholeReadsBack | tools/dump.ts:18-22 | parsed back, the whole dump is exactly the dumped entries in order |
| Dump.DumpGrouped | tools/dump.ts:24-28 | fails iff some entry is null; one serialised group per key |
| Dump.DumpGroupedReadsBack | tools/dump.ts:24-28 | parsed back, each group's dump is exactly that group's entries |
| Dump.FileNameInjective | tools/dump.ts:44 | with one extension distinct groups get distinct file names |
| Dump.GroupedFiles | tools/dump.ts:43-45 | one file per group, named `type.ext`, holding that group's dump |
| Dump.DefaultExtension | tools/dump.ts:37 | with the default extension "" every name ends in '.' |
| ParamToParam.WeightOfNumber | units/weight.ts:13-16 | non-negative: the validated weight converter; negative: a signed gram string the validator rejects |
| ParamToParam.VolumeOfNumber | units/volume.ts:16-20 | non-negative: the validated volume converter; negative: a signed litre or millilitre string the validator rejects |
| ParamToParam.MapWeight | examples/param_to_param.ts:6-11 | numbers become weight strings (valid when non-negative), anything else kept |
| ParamToParam.MapVolume | examples/param_to_param.ts:13-18 | numbers become volume strings (valid when non-negative), anything else kept |
| ParamToParam.MapName | examples/param_to_param.ts:20-25 | a string becomes the one-key object `{ str_sp }` holding it, anything else kept |
| ParamToParam.MapMaterial | examples/param_to_param.ts:27-32 | a string becomes the one-element list of it, anything else kept |
| ParamToParam.MappersIdempotent | examples/param_to_param.ts:6-32 | each field mapper leaves its own output alone |
| ParamToParam.ParamSchema | examples/param_to_param.ts:34-39 | accepts exactly objects; same keys; the four named fields mapped, every other field passed through |
| ParamToParam.ParamSchemaIdempotent | examples/param_to_param.ts:34-39 | a second run over the output changes nothing |
| ParamToParam.TransformerAppliesSchema | examples/param_to_param.ts:34-39 | through `schemaTransformer` the entry becomes exactly the schema's output |
| ParamToParam.WeightDocExample | examples/param_to_param.ts:6-11 | the doc comment's weight example: 123 → "123 g" |
| ParamToParam.DocExamples | examples/param_to_param.ts:12-27 | the other doc comments' examples: 4 → "1 L", and the name and material forms |
| ParamToParam.NegativeWeightExample | units/weight.ts:13-16 | weight −2000 becomes "−2000 g" |
| ParamToParam.NegativeVolumeExample | units/volume.ts:16-20 | volume −4 becomes "−1 L" |
| ParamsToParams.MergeDamageSchema | examples/params_to_params_test.ts:9-23 | accepts exactly objects; with both keys, pierce is dropped, damage becomes the bullet object, all else kept; otherwise unchanged |
| ParamsToParams.MergeIdempotent | examples/params_to_params_test.ts:9-23 | a merged entry is a fixed point |
| ParamsToParams.TestCases | examples/params_to_params_test.ts:25-33 | the "damage" test's three cases |
| ParamsToParams.FullEntry | examples/params_to_params_test.ts:35-60 | the "merge complex armor params" test: other fields kept |
| ParamsToParams.NonNumbersMerge | examples/params_to_params_test.ts:15 | non-numeric values trigger the merge too |
| ParamsToParams.PierceSurvivesTransformer | examples/params_to_params_test.ts:16-19 | through `schemaTransformer` the keys stay the same and pierce survives beside the new damage |
| Calories.Name | examples/calories.ts:9-13 | a string is itself; fails iff the value is neither a string nor an object with a string str_sp or str |
| Calories.NameForms | examples/calories.ts:9-13 | str_sp and str give their string, str_sp wins when both are strings, an absent name fails |
| Calories.NumberOfString | examples/calories.ts:25 | "" is 0, a digit string is its value, and a digit string after "-" or "+" is its signed value; every other string is NaN and fails |
| Calories.NumberOfIntToString | examples/calories.ts:25 | a number written as text coerces back to itself |
| Calories.CoerceNumber | examples/calories.ts:25 | absent and objects fail, numbers are themselves, booleans 1/0, null 0, strings as `Number(s)` |
| Calories.CoerceExamples | examples/calories.ts:25 | numeric strings, one-element arrays, [] and null coerce; [true], two-element arrays, "abc" and "-" fail |
| Calories.Charges | examples/calories.ts:26 | absent is 1; present must be a number and is kept |
| Calories.FoodSchema | examples/calories.ts:21-28 | accepts iff an object whose id, name, calories and charges parse; total is calories times charges |
| Calories.DefaultCharges | examples/calories.ts:26-28 | without charges the total is one portion's calories |
| Calories.CaloriesRequired | examples/calories.ts:25 | an entry without calories is rejected |
| Calories.InsertPermutes | examples/calories.ts:66 | inserting adds exactly one element |
| Calories.InsertBounded | examples/calories.ts:66 | insertion keeps every key under a bound that holds before |
| Calories.InsertSorted | examples/calories.ts:66 | inserting into a descending list keeps it descending |
| Calories.SortFoods | examples/calories.ts:65-66 | the result is sorted highest first and is a permutation of the input |
| Calories.InsertStable | examples/calories.ts:66 | insertion puts the new food before its equals and keeps the others of each key in order |
| Calories.SortStable | examples/calories.ts:65-66 | the sort is stable: the foods of any one key keep their input order |
| Calories.Shown | examples/calories.ts:70 | a prefix; all rows with no limit or limit 0; min(n, rows) for n > 0; all but the last −n for n < 0 |
| Calories.Report | examples/calories.ts:61-70 | nothing found iff nothing queried; written iff an output path is given, with the sorted foods; otherwise the limited sorted table |
| Calories.QueryFoods | examples/calories.ts:50-58 | the foods are the query over the read files with the food schema; each comes from an entry of one of those files that the schema accepts |

## Left out

- File I/O (`Deno.readTextFile`, `writeTextFile`, `stat`, `walk`, `mkdir`) becomes the `FileSystem` parameter and plain values. Errors are modelled only as far as `readJSONRec` distinguishes them.
- `applyRecursively` (utils/transform.ts:12-22) is left out. It is a concurrent loop of writes that logs and swallows errors; only the per-text function it applies is modelled.
- Timing, logging, colours, `console.table` and the cliffy `Command` wiring are left out: they are output and argument parsing. So are `utils/timeit.ts`, `utils/json_fmt.ts`, `tools/gen_types.ts`, `utils/cata_paths.ts` and `utils/test_schema.ts`, which are support code outside the core.
- JSON text syntax and `JSON.stringify` indentation are left out; they are parameters.
- Non-integer numbers, NaN, Infinity and -0 are left out. Every number is an integer.
- Object key order is left out: an object is a map. Neither the position of a new `damage` key nor that of a spread is modelled.
- Weight.FromLegacyWeight, Volume.FromLegacyVolume, Currency.FromLegacyCurrency and Energy.FromLegacyEnergy take natural numbers. The source accepts any number. Negative integers are modelled where JSON values reach the converters (ParamToParam.WeightOfNumber, ParamToParam.VolumeOfNumber) and in the LegacyUnits converters.
- Transform.DeepMerge and Transform.MergeEntry cover JSON values only. Three behaviours of the library are left out: its handling of Sets, Maps and objects with other prototypes, its guard against visiting one object twice, and its skipping of a `__proto__` key. Transform.Record indexes a string by characters, where JavaScript indexes UTF-16 code units.
- Parse.Basename handles '/' separators only; Windows paths are left out.
- Parse.ReadJsonsRec and Parse.Gather list entries in path order. The source completes reads concurrently in any order, so that order is the model's choice; the multiplicity of each entry is the source's.
- Parse.Gather reports the first failing path in path order. The source rejects with whichever concurrent read fails first.
- Parse.ReadJsonRec lists a directory's entries in walk order. `readDirRecursively` reads them concurrently, so their order in the source is not fixed.
- Weight.FromLegacyWeight, Volume.FromLegacyVolume, Currency.FromLegacyCurrency, Energy.FromLegacyEnergy, the LegacyUnits converters and Calories.NumberOfString use unbounded integers. JavaScript numbers are doubles: from 1e21 up, template strings print exponent form, which the validators reject, and past 2^53 integers are no longer exact.
- `readRecursively` is imported by utils/cli.ts, tools/replace_with.ts and examples/calories.ts, but utils/parse.ts does not export it. These tools therefore take already-read entries; `readJSONsRec` is modelled as Parse.ReadJsonsRec.
- `cliOptions.paths` is used by utils/query.ts and tools/dump.ts, but utils/cli.ts does not define it. That wiring is not modelled.
- ReplaceWith.FindId, ReplaceWith.FindFromEntry and ReplaceWith.WriteReplaceWith throw only on a null entry. Other non-object entries (numbers, strings, arrays) are destructured without error and simply do not match, as in the source; the exact `TypeError` text is V8's.
- Weight.IsWeight, Volume.IsVolume, Currency.IsCurrency, Energy.IsEnergy and the LegacyUnits validators take strings. `regex.test` first converts any other value to a string, so the array `["5 g"]` passes the weight validator. Such values are left out.
- Calories.NumberOfString and Calories.CoerceNumber read only the integer notations of `Number(s)`: an optional sign and decimal digits, or the empty string. Whitespace trimming, fractions, exponents, hex and "Infinity" give None here.
- Query: the caught error is only logged in the source. The model keeps the empty contribution and drops the log line.
- Calories.Report does not model the table rendering: `Table` carries the rows that are shown.

## Findings

| source | as written | input that shows it | evidently intended | confidence | as-written member | corrected member |
|---|---|---|---|---|---|---|
| tools/replace_with.ts:20-24 | `parseIds` passes each file's raw text to `schemaTransformer(cataWithId)`, which calls `.map` on it | any non-empty list of read files: a string has no `map`, so the call throws | each file's parsed entries, i.e. `schemaTransformer(cataWithId)(parseCataJson(text))`, which keeps every entry so that the rewrite loses none | not executed; high | ReplaceWith.ParseIdsAsWrittenThrows | ReplaceWith.WriteKeepsOtherEntries |

=== FILE: calories.dfy ===
/**
 * examples/calories.ts: query every food entry, sort the foods by calories
 * per portion or in total (highest first, ties in input order), and either
 * write them out or show the first rows as a table.
 */
module Calories {
  import opened Wrappers
  import opened JsonValue
  import Decimal
  import Parse
  import Query

  /**
   * The `name` union, tried in order: a plain string; `{ str_sp }`; `{ str }`.
   * Object members need a string at their key; other keys are ignored.
   */
  function Name(v: Option<Json>): (r: Option<string>)
    ensures v.Some? && v.value.JStr? ==> r == Some(v.value.s)
    ensures r.None? <==> !(v.Some? && (v.value.JStr? || HasStringField(v.value, "str_sp") || HasStringField(v.value, "str")))
  {
    match v
    case Some(JStr(s)) => Some(s)
    case Some(JObj(f)) =>
      if "str_sp" in f && f["str_sp"].JStr? then Some(f["str_sp"].s)
      else if "str" in f && f["str"].JStr? then Some(f["str"].s)
      else None
    case _ => None
  }

  predicate HasStringField(v: Json, key: string)
  {
    v.JObj? && key in v.fields && v.fields[key].JStr?
  }

  /** The translatable forms give their string; `str_sp` wins over `str`. */
  lemma NameForms(a: string, b: string)
    ensures Name(Some(JObj(map["str_sp" := JStr(a)]))) == Some(a)
    ensures Name(Some(JObj(map["str" := JStr(b)]))) == Some(b)
    ensures Name(Some(JObj(map["str_sp" := JStr(a), "str" := JStr(b)]))) == Some(a)
    ensures Name(Some(JObj(map["str_sp" := JNum(0), "str" := JStr(b)]))) == Some(b)
    ensures Name(None) == None
  {
  }

  /**
   * `Number(s)` for the integer notations: the empty string is 0, an
   * optional sign and decimal digits give their value, anything else NaN.
   */
  function NumberOfString(s: string): (r: Option<int>)
    ensures s == "" ==> r == Some(0)
    ensures Decimal.AllDigits(s) ==> r == Some(Decimal.DigitsValue(s))
    ensures |s| > 0 && s[0] == '-' && Decimal.AllDigits(s[1..]) ==> r == Some(0 - Decimal.DigitsValue(s[1..]))
    ensures |s| > 0 && s[0] == '+' && Decimal.AllDigits(s[1..]) ==> r == Some(Decimal.DigitsValue(s[1..]))
    ensures r.Some? <==> (s == "" || Decimal.AllDigits(s) || (|s| > 0 && (s[0] == '-' || s[0] == '+') && Decimal.AllDigits(s[1..])))
  {
    if s == "" then Some(0)
    else if Decimal.AllDigits(s) then Some(Decimal.DigitsValue(s))
    else if s[0] == '-' && Decimal.AllDigits(s[1..]) then var v: int := Decimal.DigitsValue(s[1..]); Some(-v)
    else if s[0] == '+' && Decimal.AllDigits(s[1..]) then Some(Decimal.DigitsValue(s[1..]))
    else None
  }

  /** A number written out as text coerces back to itself. */
  lemma NumberOfIntToString(n: int)
    ensures NumberOfString(Decimal.IntToString(n)) == Some(n)
  {
    var s := Decimal.IntToString(n);
    if n >= 0 {
      Decimal.DigitsValueOfNatToString(n);
    } else {
      assert s[1..] == Decimal.NatToString(-n);
      Decimal.DigitsValueOfNatToString(-n);
    }
  }

  /**
   * `Number(String(v))`, the coercion of an array element: null is "",
   * booleans and objects are NaN, arrays join their elements (so only an
   * empty or one-element array can be numeric).
   */
  function ElementNumber(v: Json): Option<int>
  {
    match v
    case JNull => Some(0)
    case JBool(_) => None
    case JNum(n) => Some(n)
    case JStr(s) => NumberOfString(s)
    case JObj(_) => None
    case JArr(items) =>
      if |items| == 0 then Some(0)
      else if |items| == 1 then ElementNumber(items[0])
      else None
  }

  /**
   * `z.coerce.number()`: `Number(v)`, failing on NaN, which an absent field
   * (undefined) and objects give.
   */
  function CoerceNumber(v: Option<Json>): (r: Option<int>)
    ensures v.None? ==> r.None?
    ensures v.Some? && v.value.JNum? ==> r == Some(v.value.n)
    ensures v.Some? && v.value.JObj? ==> r.None?
    ensures v.Some? && v.value.JBool? ==> r == Some(if v.value.b then 1 else 0)
    ensures v.Some? && v.value.JStr? ==> r == NumberOfString(v.value.s)
    ensures v.Some? && v.value.JNull? ==> r == Some(0)
  {
    match v
    case None => None
    case Some(JBool(b)) => Some(if b then 1 else 0)
    case Some(e) => ElementNumber(e)
  }

  /** Coercion examples, strings and arrays included. */
  lemma CoerceExamples(n: int)
    ensures CoerceNumber(Some(JStr(Decimal.IntToString(n)))) == Some(n)
    ensures CoerceNumber(Some(JArr([JStr(Decimal.IntToString(n))]))) == Some(n)
    ensures CoerceNumber(Some(JArr([]))) == Some(0)
    ensures CoerceNumber(Some(JNull)) == Some(0)
    ensures CoerceNumber(Some(JArr([JBool(true)]))) == None
    ensures CoerceNumber(Some(JArr([JNum(1), JNum(2)]))) == None
    ensures CoerceNumber(Some(JStr("abc"))) == None
    ensures CoerceNumber(Some(JStr("-"))) == None
  {
    NumberOfIntToString(n);
  }

  /** A parsed food, `food`'s output: the fields it declares plus the total. */
  datatype Food = Food(id: Option<string>, name: string, calories: int, charges: int, total: int)

  /** `z.string().optional()`: absent, or a string. */
  function OptionalString(v: Option<Json>): Option<Option<string>>
  {
    match v
    case None => Some(None)
    case Some(JStr(s)) => Some(Some(s))
    case _ => None
  }

  /** `z.number().default(1)`: absent is 1; otherwise it must be a number. */
  function Charges(v: Option<Json>): (r: Option<int>)
    ensures v.None? ==> r == Some(1)
    ensures v.Some? ==> (r.Some? <==> v.value.JNum?)
    ensures v.Some? && v.value.JNum? ==> r == Some(v.value.n)
  {
    match v
    case None => Some(1)
    case Some(JNum(n)) => Some(n)
    case _ => None
  }

  /**
   * `food.safeParse`: an object whose fields all parse; the output keeps the
   * declared fields only and adds `total = calories * charges`.
   */
  function FoodSchema(x: Json): (r: Option<Food>)
    ensures r.Some? <==>
      && x.JObj?
      && OptionalString(Get(x.fields, "id")).Some?
      && Name(Get(x.fields, "name")).Some?
      && CoerceNumber(Get(x.fields, "calories")).Some?
      && Charges(Get(x.fields, "charges")).Some?
    ensures r.Some? ==>
      && r.value.id == OptionalString(Get(x.fields, "id")).value
      && r.value.name == Name(Get(x.fields, "name")).value
      && r.value.calories == CoerceNumber(Get(x.fields, "calories")).value
      && r.value.charges == Charges(Get(x.fields, "charges")).value
      && r.value.total == r.value.calories * r.value.charges
  {
    match x
    case JObj(f) =>
      var id := OptionalString(Get(f, "id"));
      var name := Name(Get(f, "name"));
      var calories := CoerceNumber(Get(f, "calories"));
      var charges := Charges(Get(f, "charges"));
      if id.Some? && name.Some? && calories.Some? && charges.Some? then
        Some(Food(id.value, name.value, calories.value, charges.value, calories.value * charges.value))
      else None
    case _ => None
  }

  /** Without `charges` the total is the calories of one portion. */
  lemma DefaultCharges(x: Json)
    requires x.JObj? && "charges" !in x.fields && FoodSchema(x).Some?
    ensures FoodSchema(x).value.charges == 1 && FoodSchema(x).value.total == FoodSchema(x).value.calories
  {
  }

  /** A food entry needs its calories: absent calories reject the entry. */
  lemma CaloriesRequired(x: Json)
    requires x.JObj? && "calories" !in x.fields
    ensures FoodSchema(x).None?
  {
  }

  /** The two `--sort-by` choices. */
  datatype SortBy = Portion | Total

  /** The quantity a comparator orders by. */
  function Key(f: Food, order: SortBy): int
  {
    match order
    case Portion => f.calories
    case Total => f.total
  }

  /** Highest first. */
  predicate SortedDesc(s: seq<Food>, order: SortBy)
  {
    forall i, j :: 0 <= i < j < |s| ==> Key(s[i], order) >= Key(s[j], order)
  }

  /** The foods whose key is `k`, in order. */
  function WithKey(s: seq<Food>, order: SortBy, k: int): (r: seq<Food>)
    ensures |r| <= |s|
  {
    if s == [] then []
    else (if Key(s[0], order) == k then [s[0]] else []) + WithKey(s[1..], order, k)
  }

  /**
   * Inserts `x` in front of the first element whose key is not larger:
   * before its equals, which come after it in the input.
   */
  function Insert(x: Food, s: seq<Food>, order: SortBy): (r: seq<Food>)
    ensures |r| == |s| + 1
  {
    if s == [] || Key(s[0], order) <= Key(x, order) then [x] + s
    else [s[0]] + Insert(x, s[1..], order)
  }

  /** Inserting adds exactly `x`. */
  lemma {:induction false} InsertPermutes(x: Food, s: seq<Food>, order: SortBy)
    ensures multiset(Insert(x, s, order)) == multiset(s) + multiset{x}
  {
    if !(s == [] || Key(s[0], order) <= Key(x, order)) {
      InsertPermutes(x, s[1..], order);
      assert s == [s[0]] + s[1..];
      assert multiset(s) == multiset{s[0]} + multiset(s[1..]);
    }
  }

  /** Every key at most `b`, before and after inserting a key at most `b`. */
  predicate KeysAtMost(s: seq<Food>, order: SortBy, b: int)
  {
    forall j :: 0 <= j < |s| ==> Key(s[j], order) <= b
  }

  lemma {:induction false} InsertBounded(x: Food, s: seq<Food>, order: SortBy, b: int)
    requires KeysAtMost(s, order, b) && Key(x, order) <= b
    ensures KeysAtMost(Insert(x, s, order), order, b)
  {
    var r := Insert(x, s, order);
    if s == [] || Key(s[0], order) <= Key(x, order) {
      assert forall j :: 1 <= j < |r| ==> r[j] == s[j - 1];
    } else {
      InsertBounded(x, s[1..], order, b);
      assert forall j :: 1 <= j < |r| ==> r[j] == Insert(x, s[1..], order)[j - 1];
    }
  }

  /** Inserting into a descending list keeps it descending. */
  lemma {:induction false} InsertSorted(x: Food, s: seq<Food>, order: SortBy)
    requires SortedDesc(s, order)
    ensures SortedDesc(Insert(x, s, order), order)
  {
    var r := Insert(x, s, order);
    if s == [] || Key(s[0], order) <= Key(x, order) {
      assert forall j :: 1 <= j < |r| ==> r[j] == s[j - 1];
    } else {
      var rest := Insert(x, s[1..], order);
      InsertSorted(x, s[1..], order);
      InsertBounded(x, s[1..], order, Key(s[0], order));
      assert forall j :: 1 <= j < |r| ==> r[j] == rest[j - 1];
    }
  }

  /** `toSorted(compareByPortion)` / `toSorted(compareByTotal)`: stable, descending. */
  function SortFoods(s: seq<Food>, order: SortBy): (r: seq<Food>)
    ensures SortedDesc(r, order)
    ensures multiset(r) == multiset(s)
    ensures |r| == |s|
  {
    if s == [] then []
    else
      var rest := SortFoods(s[1..], order);
      InsertSorted(s[0], rest, order);
      InsertPermutes(s[0], rest, order);
      assert s == [s[0]] + s[1..];
      Insert(s[0], rest, order)
  }

  lemma {:induction false} InsertStable(x: Food, s: seq<Food>, order: SortBy, k: int)
    ensures WithKey(Insert(x, s, order), order, k) == (if Key(x, order) == k then [x] else []) + WithKey(s, order, k)
  {
    if s == [] || Key(s[0], order) <= Key(x, order) {
      WithKeyCons(x, s, order, k);
    } else {
      var rest := Insert(x, s[1..], order);
      assert Insert(x, s, order) == [s[0]] + rest;
      WithKeyCons(s[0], rest, order, k);
      InsertStable(x, s[1..], order, k);
      assert s == [s[0]] + s[1..];
      WithKeyCons(s[0], s[1..], order, k);
      if Key(s[0], order) == k {
        assert Key(x, order) != k;
      }
    }
  }

  lemma WithKeyCons(y: Food, t: seq<Food>, order: SortBy, k: int)
    ensures WithKey([y] + t, order, k) == (if Key(y, order) == k then [y] else []) + WithKey(t, order, k)
  {
    assert ([y] + t)[0] == y && ([y] + t)[1..] == t;
  }

  /**
   * The sort is stable: the foods of any one key keep their input order.
   * With sortedness and the multiset equality this fixes the result.
   */
  lemma {:induction false} SortStable(s: seq<Food>, order: SortBy, k: int)
    ensures WithKey(SortFoods(s, order), order, k) == WithKey(s, order, k)
  {
    if s != [] {
      SortStable(s[1..], order, k);
      InsertStable(s[0], SortFoods(s[1..], order), order, k);
    }
  }

  /** `--limit <n>` or `--no-limit` (limit false). */
  datatype Limit = NoLimit | Limit(n: int)

  /**
   * `result.slice(0, limit || undefined)`: a falsy limit (none, or 0) shows
   * every row; a positive one the first n; a negative one drops the last -n.
   */
  function Shown(rows: seq<Food>, limit: Limit): (r: seq<Food>)
    ensures r <= rows
    ensures (limit.NoLimit? || limit.n == 0) ==> r == rows
    ensures limit.Limit? && limit.n > 0 ==> |r| == if limit.n < |rows| then limit.n else |rows|
    ensures limit.Limit? && limit.n < 0 ==> |r| == if |rows| + limit.n > 0 then |rows| + limit.n else 0
  {
    match limit
    case NoLimit => rows
    case Limit(n) =>
      if n == 0 then rows
      else if n > 0 then rows[..if n < |rows| then n else |rows|]
      else rows[..if |rows| + n > 0 then |rows| + n else 0]
  }

  /** What a run of the command ends with. */
  datatype Outcome = NoEntries | Written(path: string, text: string) | Table(rows: seq<Food>)

  /**
   * The action after querying: nothing found; or the sorted foods, written
   * out in full (`outputTo`) when an output path is given, or else shown as a
   * limited table.
   */
  function Report(queried: seq<Food>, order: SortBy, output: Option<string>, limit: Limit,
                  stringify: seq<Food> -> string): (r: Outcome)
    ensures r.NoEntries? <==> queried == []
    ensures r.Written? ==> output.Some? && r.path == output.value && r.text == stringify(SortFoods(queried, order))
    ensures r.Table? ==> r.rows == Shown(SortFoods(queried, order), limit)
    ensures queried != [] ==> (r.Written? <==> output.Some? && output.value != "")
  {
    if queried == [] then NoEntries
    else
      var result := SortFoods(queried, order);
      if output.Some? && output.value != "" then Written(output.value, stringify(result))
      else Table(Shown(result, limit))
  }

  /** The foods of every readable file; files that fail to parse are skipped. */
  function QueryFoods(parse: string -> Option<Json>, entries: seq<Parse.Entry>): (r: seq<Food>)
    ensures r == Query.QueryFiles(FoodSchema, parse, entries)
    ensures forall f :: f in r ==> exists i :: 0 <= i < |entries| && FromFile(parse, entries[i], f)
  {
    var r := Query.QueryFiles(FoodSchema, parse, entries);
    forall f | f in r
      ensures exists i :: 0 <= i < |entries| && FromFile(parse, entries[i], f)
    {
      var i :| 0 <= i < |entries| && f in Query.FileResult(FoodSchema, parse, entries[i]);
      var x :| x in Parse.Normalise(parse(entries[i].text).value) && FoodSchema(x) == Some(f);
    }
    r
  }

  /** `f` is what the food schema makes of one of the entries of file `e`. */
  predicate FromFile(parse: string -> Option<Json>, e: Parse.Entry, f: Food)
  {
    parse(e.text).Some? && exists x :: x in Parse.Normalise(parse(e.text).value) && FoodSchema(x) == Some(f)
  }
}

=== FILE: cli.dfy ===
/**
 * utils/cli.ts: path unpacking and the guarded migration of one file's text,
 * which leaves a file holding map-generation data untouched.
 */
module Cli {
  import opened Wrappers
  import opened JsonValue
  import Parse
  import Transform

  /** The argument of `unpack`: a list of paths, or a list of read entries. */
  datatype PathsOrEntries = PathList(paths: seq<string>) | EntryList(entries: seq<Parse.Entry>)

  /** `unpack`: paths as they are, entries to their paths. */
  function Unpack(xs: PathsOrEntries): (r: seq<string>)
    ensures xs.PathList? ==> r == xs.paths
    ensures xs.EntryList? ==> |r| == |xs.entries| && forall i :: 0 <= i < |r| ==> r[i] == xs.entries[i].path
  {
    match xs
    case PathList(ps) => ps
    case EntryList(es) => seq(|es|, i requires 0 <= i < |es| => es[i].path)
  }

  /** Entry types whose files the migration never rewrites. */
  const IgnoredTypes: seq<string> := ["mapgen", "palette", "mod_tileset"]

  predicate IsIgnored(e: Json)
  {
    var t := TypeOf(e);
    t.Some? && t.value in IgnoredTypes
  }

  /**
   * `ignore(entries)`: the first entry of an ignored type, if any; None when
   * the search reaches a null entry first, whose destructuring throws.
   */
  function Ignore(entries: seq<Json>): (r: Option<Option<Json>>)
    ensures r == Some(None) <==> forall i :: 0 <= i < |entries| ==> !entries[i].JNull? && !IsIgnored(entries[i])
    ensures r.Some? && r.value.Some? ==> r.value.value in entries && IsIgnored(r.value.value)
    ensures r.None? <==> exists i :: 0 <= i < |entries| && entries[i].JNull? && forall j :: 0 <= j < i ==> !IsIgnored(entries[j])
  {
    if entries == [] then Some(None)
    else if entries[0].JNull? then None
    else if IsIgnored(entries[0]) then Some(Some(entries[0]))
    else
      var r := Ignore(entries[1..]);
      assert forall i :: 1 <= i < |entries| ==> entries[i] == entries[1..][i - 1];
      r
  }

  /**
   * `mapgenIgnoringTransformer(text)`: None when it throws (`JSON.parse`
   * fails, `ignore` meets a null entry, or a merge meets a null); the text verbatim when some entry
   * has an ignored type; otherwise the serialisation (`stringify`) of the
   * transformed entries as an array.
   */
  function MapgenIgnoringTransformer(
    schema: Json -> Option<Json>, parse: string -> Option<Json>, stringify: Json -> string, text: string
  ): (r: Option<string>)
    ensures r.Some? <==>
      && parse(text).Some? && Ignore(Parse.Normalise(parse(text).value)).Some?
      && (Ignore(Parse.Normalise(parse(text).value)).value.Some?
          || Transform.SchemaTransformer(schema, Parse.Normalise(parse(text).value)).Some?)
    ensures r.Some? && Ignore(Parse.Normalise(parse(text).value)).value.Some? ==> r.value == text
    ensures r.Some? && Ignore(Parse.Normalise(parse(text).value)).value.None? ==>
      r.value == stringify(JArr(Transform.SchemaTransformer(schema, Parse.Normalise(parse(text).value)).value))
  {
    match Parse.ParseCataJson(parse, text)
    case None => None
    case Some(entries) =>
      match Ignore(entries)
      case None => None
      case Some(Some(_)) => Some(text)
      case Some(None) =>
        match Transform.SchemaTransformer(schema, entries)
        case None => None
        case Some(transformed) => Some(stringify(JArr(transformed)))
  }

  /**
   * One ignored entry, with no null entry before it, keeps every other entry
   * of its file from being transformed.
   */
  lemma OneIgnoredEntryBlocksFile(
    schema: Json -> Option<Json>, parse: string -> Option<Json>, stringify: Json -> string, text: string, i: nat
  )
    requires parse(text).Some? && parse(text).value.JArr?
    requires i < |parse(text).value.items| && IsIgnored(parse(text).value.items[i])
    requires forall j :: 0 <= j < i ==> !parse(text).value.items[j].JNull?
    ensures MapgenIgnoringTransformer(schema, parse, stringify, text) == Some(text)
  {
    var entries := parse(text).value.items;
    assert entries == Parse.Normalise(parse(text).value);
  }

  /** The "Do nothing" script's schema, `z.object({}).passthrough().transform(id)`. */
  function Noop(x: Json): (r: Option<Json>)
    ensures r.Some? <==> x.JObj?
    ensures r.Some? ==> r.value == x
  {
    if x.JObj? then Some(x) else None
  }

  /**
   * The "Do nothing" script rewrites a file with its own entries, as an
   * array: a file holding a single object comes back as a one-element array.
   */
  lemma NoopRewritesEntries(parse: string -> Option<Json>, stringify: Json -> string, text: string)
    requires parse(text).Some?
    requires forall e :: e in Parse.Normalise(parse(text).value) ==> !e.JNull? && !IsIgnored(e)
    ensures MapgenIgnoringTransformer(Noop, parse, stringify, text) == Some(stringify(JArr(Parse.Normalise(parse(text).value))))
  {
    var entries := Parse.Normalise(parse(text).value);
    Transform.IdentityOnAccepted(Noop, entries);
  }
}

=== FILE: currency.dfy ===
/** units/currency.ts: legacy cents to a currency string. */
module Currency {
  import opened Wrappers
  import opened UnitFormat
  import Decimal

  /** The unit alternatives of the `currency` validator. */
  const Units: set<string> := {"cent", "USD", "kUSD"}

  const Usd: nat := 100
  const Kusd: nat := 1000 * Usd

  /** Size of each currency unit in cents. */
  const Cents: map<string, nat> := map["cent" := 1, "USD" := Usd, "kUSD" := Kusd]

  /** The `currency` validator, `^\d+ (cent|USD|kUSD)$`. */
  predicate IsCurrency(s: string)
  {
    Accepts(s, Units)
  }
  /** The validator accepts exactly digits, one space and a currency unit. */
  lemma IsCurrencyIffParses(s: string)
    ensures IsCurrency(s) <==> ParseTagged(s).Some? && ParseTagged(s).value.1 in Units
  {
    AcceptsIffParses(s, Units);
  }


  /**
   * `fromLegacyCurrency`: the first matching case of zero, a multiple of a
   * kUSD, a multiple of a USD, and cents.
   */
  function FromLegacyCurrency(c: nat): (r: string)
    ensures IsCurrency(r)
    ensures Quantity(r, Cents) == Some(c)
    ensures c == 0 ==> r == "0 cent"
    ensures c != 0 && c % Kusd == 0 ==> ParseTagged(r) == Some((c / Kusd, "kUSD"))
    ensures c % Kusd != 0 && c % Usd == 0 ==> ParseTagged(r) == Some((c / Usd, "USD"))
    ensures c % Usd != 0 ==> ParseTagged(r) == Some((c, "cent"))
  {
    assert Cents["cent"] == 1 && Cents["USD"] == Usd && Cents["kUSD"] == Kusd;
    if c == 0 then
      RenderWhole(0, "cent");
      ZeroCents();
      Render(0, "cent")
    else if c % Kusd == 0 then
      RenderWhole(c, "kUSD");
      Render(c / Kusd, "kUSD")
    else if c % Usd == 0 then
      RenderWhole(c, "USD");
      Render(c / Usd, "USD")
    else
      RenderWhole(c, "cent");
      Render(c, "cent")
  }

  lemma ZeroCents()
    ensures Render(0, "cent") == "0 cent"
  {
    RenderZero("cent");
  }

  /** A whole number of `unit`s renders as a currency string denoting `c` cents. */
  lemma RenderWhole(c: nat, unit: string)
    requires unit in Cents && c % Cents[unit] == 0
    ensures IsCurrency(Render(c / Cents[unit], unit))
    ensures ParseTagged(Render(c / Cents[unit], unit)) == Some((c / Cents[unit], unit))
    ensures Quantity(Render(c / Cents[unit], unit), Cents) == Some(c)
  {
    ExactDivision(c, Cents[unit], 1);
    RenderFacts(c / Cents[unit], unit, Units, Cents);
  }

  /** Zero has its own case. */
  lemma ExampleZero()
    ensures FromLegacyCurrency(0) == "0 cent"
  {
  }

  /** kUSD is tested before USD: 100000 cents is one kUSD, never 1000 USD. */
  lemma ExampleKusd()
    ensures FromLegacyCurrency(100000) == "1 kUSD" != "1000 USD"
  {
    assert FromLegacyCurrency(100000) == Render(1, "kUSD");
  }

  /** Whole dollars below a kUSD are written in USD. */
  lemma ExampleUsd()
    ensures FromLegacyCurrency(200) == "2 USD"
  {
    assert 200 % Kusd != 0 && 200 % Usd == 0 && 200 / Usd == 2;
    assert FromLegacyCurrency(200) == Render(2, "USD");
  }

  /** Anything else is written in cents. */
  lemma ExampleCent()
    ensures FromLegacyCurrency(150) == "150 cent"
  {
    assert 150 % Kusd != 0 && 150 % Usd != 0;
    assert FromLegacyCurrency(150) == Render(150, "cent");
    Decimal.Writes150();
  }

  /** The result is the canonical form over the tiers cent, USD, kUSD. */
  lemma IsCanonical(c: nat)
    ensures FromLegacyCurrency(c) == Canonical(c, ["cent", "USD", "kUSD"], [1, Usd, Kusd])
  {
    var ratios := [1, Usd, Kusd];
    var units := ["cent", "USD", "kUSD"];
    assert ratios[..2] == [1, Usd] && [1, Usd][..1] == [1];
    var i := CanonicalTier(c, ratios);
    if c == 0 {
      assert i == 0;
      assert Canonical(c, units, ratios) == Render(0, "cent");
    } else if c % Kusd == 0 {
      assert i == 2;
      assert Canonical(c, units, ratios) == Render(c / Kusd, "kUSD");
    } else if c % Usd == 0 {
      assert i == CanonicalTier(c, [1, Usd]) == 1;
      assert Canonical(c, units, ratios) == Render(c / Usd, "USD");
    } else {
      assert i == CanonicalTier(c, [1, Usd]) == CanonicalTier(c, [1]) == 0;
      assert Canonical(c, units, ratios) == Render(c, "cent");
    }
  }
}

=== FILE: decimal.dfy ===
/**
 * Decimal rendering of integers, as JavaScript's template literals do for
 * safe integers, and the digit-string reading used to interpret unit strings.
 */
module Decimal {

  predicate IsDigit(c: char)
  {
    '0' <= c <= '9'
  }

  /** The `\d+` part of a validator: a non-empty run of ASCII digits. */
  predicate AllDigits(s: string)
  {
    |s| > 0 && forall i :: 0 <= i < |s| ==> IsDigit(s[i])
  }

  function DigitChar(d: nat): (c: char)
    requires d < 10
    ensures IsDigit(c)
  {
    "0123456789"[d]
  }

  /** `${n}` for a natural number. */
  function NatToString(n: nat): (s: string)
    ensures AllDigits(s)
  {
    if n < 10 then [DigitChar(n)] else NatToString(n / 10) + [DigitChar(n % 10)]
  }

  /** `${n}` for any integer: a leading '-' for negatives. */
  function IntToString(n: int): (s: string)
    ensures |s| > 0
    ensures n >= 0 ==> AllDigits(s)
    ensures n < 0 ==> s[0] == '-' && AllDigits(s[1..])
  {
    if n >= 0 then NatToString(n) else "-" + NatToString(-n)
  }

  /** The decimal forms the examples of this model use, each unfolded digit by digit. */
  lemma Writes123()
    ensures NatToString(123) == "123"
  {
    assert NatToString(12) == "12";
  }

  lemma Writes150()
    ensures NatToString(150) == "150"
  {
    assert NatToString(15) == "15";
  }

  lemma Writes750()
    ensures NatToString(750) == "750"
  {
    assert NatToString(75) == "75";
  }

  lemma Writes1500()
    ensures NatToString(1500) == "1500"
  {
    Writes150();
  }

  lemma Writes2000()
    ensures NatToString(2000) == "2000"
  {
    assert NatToString(20) == "20";
    assert NatToString(200) == "200";
  }

  /** The value of a string of decimal digits. */
  function DigitsValue(s: string): nat
    requires forall i :: 0 <= i < |s| ==> IsDigit(s[i])
  {
    if s == [] then 0
    else
      assert IsDigit(s[|s| - 1]);
      DigitsValue(s[..|s| - 1]) * 10 + (s[|s| - 1] as int - '0' as int)
  }

  /** Reading back what NatToString wrote gives the number again. */
  lemma {:induction false} DigitsValueOfNatToString(n: nat)
    ensures DigitsValue(NatToString(n)) == n
  {
    var s := NatToString(n);
    if n < 10 {
      assert s[..|s| - 1] == [];
    } else {
      var p := NatToString(n / 10);
      assert s[..|s| - 1] == p;
      DigitsValueOfNatToString(n / 10);
    }
  }

  /** Distinct numbers render differently. */
  lemma NatToStringInjective(m: nat, n: nat)
    requires NatToString(m) == NatToString(n)
    ensures m == n
  {
    DigitsValueOfNatToString(m);
    DigitsValueOfNatToString(n);
  }
}

=== FILE: dump.dfy ===
/**
 * tools/dump.ts: reading every entry of the given files into one list, and
 * grouping that list by entry type, one output file per type.
 */
module Dump {
  import opened Wrappers
  import opened JsonValue
  import Decimal
  import Parse

  predicate AllParse(parse: string -> Option<Json>, files: seq<Parse.Entry>)
  {
    forall i :: 0 <= i < |files| ==> parse(files[i].text).Some?
  }

  /** The entries of every file, flattened in file order. */
  function Entries(parse: string -> Option<Json>, files: seq<Parse.Entry>): seq<Json>
    requires AllParse(parse, files)
  {
    if files == [] then []
    else
      assert AllParse(parse, files[1..]) by {
        assert forall i :: 1 <= i < |files| ==> files[i] == files[1..][i - 1];
      }
      Parse.ParseCataJson(parse, files[0].text).value + Entries(parse, files[1..])
  }

  /**
   * `dump`: every file's entries, flattened in file order; None when some
   * file's text does not parse (`parseCataJson` throws and nothing catches it).
   */
  function Dump(parse: string -> Option<Json>, files: seq<Parse.Entry>): (r: Option<seq<Json>>)
    ensures r.Some? <==> AllParse(parse, files)
    ensures r.Some? ==> r.value == Entries(parse, files)
  {
    if AllParse(parse, files) then Some(Entries(parse, files)) else None
  }

  /** Dumping distributes over the list of files. */
  lemma {:induction false} EntriesAppend(parse: string -> Option<Json>, a: seq<Parse.Entry>, b: seq<Parse.Entry>)
    requires AllParse(parse, a) && AllParse(parse, b)
    ensures AllParse(parse, a + b)
    ensures Entries(parse, a + b) == Entries(parse, a) + Entries(parse, b)
  {
    var ab := a + b;
    assert forall i :: 0 <= i < |ab| ==> ab[i] == if i < |a| then a[i] else b[i - |a|];
    if a == [] {
      assert ab == b;
    } else {
      assert ab[0] == a[0] && ab[1..] == a[1..] + b;
      assert AllParse(parse, a[1..]) by {
        assert forall i :: 1 <= i < |a| ==> a[i] == a[1..][i - 1];
      }
      EntriesAppend(parse, a[1..], b);
    }
  }

  /** A file whose text does not parse makes the whole dump fail, wherever it is. */
  lemma OneBadFileFailsDump(parse: string -> Option<Json>, files: seq<Parse.Entry>, i: nat)
    requires i < |files| && parse(files[i].text).None?
    ensures Dump(parse, files).None?
  {
  }

  /** `String(v)`, the property key `Object.groupBy` makes of a value. */
  function JsString(v: Json): string
  {
    match v
    case JNull => "null"
    case JBool(b) => if b then "true" else "false"
    case JNum(n) => Decimal.IntToString(n)
    case JStr(s) => s
    case JObj(_) => "[object Object]"
    case JArr(items) =>
      // Array.prototype.join writes null elements as empty strings
      Join(seq(|items|, i requires 0 <= i < |items| => if items[i].JNull? then "" else JsString(items[i])))
  }

  function Join(parts: seq<string>): string
  {
    if parts == [] then "" else if |parts| == 1 then parts[0] else parts[0] + "," + Join(parts[1..])
  }

  /**
   * The group of an entry, `({ type }) => type`: the string of its `type`
   * field, "undefined" when it has none; None for a null entry, on which the
   * destructuring throws.
   */
  function GroupKey(e: Json): (r: Option<string>)
    ensures r.None? <==> e.JNull?
    ensures TypeOf(e).Some? ==> r == TypeOf(e)
  {
    match e
    case JNull => None
    case JObj(f) => if "type" in f then Some(JsString(f["type"])) else Some("undefined")
    case _ => Some("undefined")
  }

  predicate Groupable(jsons: seq<Json>)
  {
    forall i :: 0 <= i < |jsons| ==> !jsons[i].JNull?
  }

  /** The entries of one group, in input order. */
  function OfGroup(jsons: seq<Json>, key: string): (r: seq<Json>)
    requires Groupable(jsons)
    ensures forall e :: e in r <==> e in jsons && GroupKey(e) == Some(key)
  {
    if jsons == [] then []
    else
      var rest := OfGroup(jsons[1..], key);
      assert forall e :: e in jsons <==> e == jsons[0] || e in jsons[1..];
      (if GroupKey(jsons[0]) == Some(key) then [jsons[0]] else []) + rest
  }

  /** The distinct group keys. */
  function Keys(jsons: seq<Json>): (r: set<string>)
    requires Groupable(jsons)
    ensures forall k :: k in r <==> exists i :: 0 <= i < |jsons| && GroupKey(jsons[i]) == Some(k)
  {
    set i | 0 <= i < |jsons| :: GroupKey(jsons[i]).value
  }

  /** `Object.groupBy(jsons, ({ type }) => type)` */
  function GroupByType(jsons: seq<Json>): (r: map<string, seq<Json>>)
    requires Groupable(jsons)
    ensures r.Keys == Keys(jsons)
    ensures forall i :: 0 <= i < |jsons| ==> jsons[i] in r[GroupKey(jsons[i]).value]
    ensures forall k, e :: k in r && e in r[k] ==> e in jsons && GroupKey(e) == Some(k)
  {
    map k | k in Keys(jsons) :: OfGroup(jsons, k)
  }

  /** Grouping keeps relative order: each group distributes over `+`. */
  lemma {:induction false} OfGroupAppend(a: seq<Json>, b: seq<Json>, key: string)
    requires Groupable(a) && Groupable(b)
    ensures Groupable(a + b)
    ensures OfGroup(a + b, key) == OfGroup(a, key) + OfGroup(b, key)
  {
    assert forall i :: 0 <= i < |a + b| ==> (a + b)[i] == if i < |a| then a[i] else b[i - |a|];
    if a == [] {
      assert a + b == b;
    } else {
      assert (a + b)[0] == a[0] && (a + b)[1..] == a[1..] + b;
      OfGroupAppend(a[1..], b, key);
    }
  }

  /**
   * The groups partition the input: an entry occurs in its own group as
   * often as in the input, and in no other group.
   */
  lemma {:induction false} OfGroupCount(jsons: seq<Json>, key: string, e: Json)
    requires Groupable(jsons)
    ensures multiset(OfGroup(jsons, key))[e] == if GroupKey(e) == Some(key) then multiset(jsons)[e] else 0
  {
    if jsons != [] {
      OfGroupCount(jsons[1..], key, e);
      assert jsons == [jsons[0]] + jsons[1..];
      assert multiset(jsons) == multiset([jsons[0]]) + multiset(jsons[1..]);
    }
  }

  /** `dumpGrouped`: each group serialised; None when a null entry makes grouping throw. */
  function DumpGrouped(jsons: seq<Json>, stringify: Json -> string): (r: Option<map<string, string>>)
    ensures r.Some? <==> Groupable(jsons)
    ensures r.Some? ==> r.value.Keys == Keys(jsons)
    ensures r.Some? ==> forall k :: k in r.value ==> r.value[k] == stringify(JArr(OfGroup(jsons, k)))
  {
    if Groupable(jsons) then
      var groups := GroupByType(jsons);
      Some(map k | k in groups :: stringify(JArr(groups[k])))
    else None
  }

  /** `dumpWhole`: the whole list serialised at once. */
  function DumpWhole(jsons: seq<Json>, stringify: Json -> string): string
  {
    stringify(JArr(jsons))
  }

  /**
   * Read back with a `JSON.parse` that inverts `JSON.stringify` on it, the
   * whole dump gives exactly the dumped entries, in order.
   */
  lemma DumpWholeReadsBack(jsons: seq<Json>, stringify: Json -> string, parse: string -> Option<Json>)
    requires parse(stringify(JArr(jsons))) == Some(JArr(jsons))
    ensures Parse.ParseCataJson(parse, DumpWhole(jsons, stringify)) == Some(jsons)
  {
  }

  /** Read back the same way, a group's dump gives exactly that group's entries. */
  lemma DumpGroupedReadsBack(jsons: seq<Json>, stringify: Json -> string, parse: string -> Option<Json>, k: string)
    requires Groupable(jsons) && k in Keys(jsons)
    requires parse(stringify(JArr(OfGroup(jsons, k)))) == Some(JArr(OfGroup(jsons, k)))
    ensures DumpGrouped(jsons, stringify).Some? && k in DumpGrouped(jsons, stringify).value
    ensures Parse.ParseCataJson(parse, DumpGrouped(jsons, stringify).value[k]) == Some(OfGroup(jsons, k))
  {
  }

  /** The name `writeGrouped` gives a group's file under the output directory. */
  function FileName(groupKey: string, ext: string): string
  {
    groupKey + "." + ext
  }

  /** With one extension, distinct groups get distinct files. */
  lemma FileNameInjective(k1: string, k2: string, ext: string)
    requires FileName(k1, ext) == FileName(k2, ext)
    ensures k1 == k2
  {
    assert k1 == FileName(k1, ext)[..|k1|];
    assert k2 == FileName(k2, ext)[..|k2|];
  }

  /** The files `writeGrouped` writes: file name to contents, one per group. */
  function GroupedFiles(dumped: map<string, string>, ext: string): (r: map<string, string>)
    ensures r.Keys == set k | k in dumped :: FileName(k, ext)
    ensures forall k :: k in dumped ==> r[FileName(k, ext)] == dumped[k]
  {
    forall k1, k2 | k1 in dumped && k2 in dumped && FileName(k1, ext) == FileName(k2, ext)
      ensures k1 == k2
    {
      FileNameInjective(k1, k2, ext);
    }
    map k | k in dumped :: FileName(k, ext) := dumped[k]
  }

  /** With the default extension "" every file name ends in '.'. */
  lemma DefaultExtension(groupKey: string)
    ensures FileName(groupKey, "") == groupKey + "."
  {
  }
}

=== FILE: energy.dfy ===
/** units/energy.ts: legacy kilojoules to an energy string. */
module Energy {
  import opened Wrappers
  import opened UnitFormat

  /** The unit alternatives of the `energy` validator. */
  const Units: set<string> := {"mJ", "J", "kJ"}

  /** Size of each energy unit in millijoules. */
  const Millijoules: map<string, nat> := map["mJ" := 1, "J" := 1000, "kJ" := 1000000]

  /** The `energy` validator, `^\d+ (m|k)?J$`. */
  predicate IsEnergy(s: string)
  {
    Accepts(s, Units)
  }
  /** The validator accepts exactly digits, one space and an energy unit. */
  lemma IsEnergyIffParses(s: string)
    ensures IsEnergy(s) <==> ParseTagged(s).Some? && ParseTagged(s).value.1 in Units
  {
    AcceptsIffParses(s, Units);
  }


  /** `fromLegacyEnergy`: always kilojoules, magnitude unchanged. */
  function FromLegacyEnergy(kj: nat): (r: string)
    ensures IsEnergy(r)
    ensures ParseTagged(r) == Some((kj, "kJ"))
    ensures Quantity(r, Millijoules) == Some(kj * 1000000)
  {
    RenderFacts(kj, "kJ", Units, Millijoules);
    Render(kj, "kJ")
  }
}

=== FILE: json.dfy ===
/**
 * A parsed JSON value, as produced by `JSON.parse` and consumed by
 * `JSON.stringify`.  Numbers are integers; JSON text syntax is not modelled.
 */
module JsonValue {
  import opened Wrappers

  datatype Json =
    | JNull
    | JBool(b: bool)
    | JNum(n: int)
    | JStr(s: string)
    | JArr(items: seq<Json>)
    | JObj(fields: map<string, Json>)

  /** `obj[key]` for a record: the value, or None when the key is absent. */
  function Get(fields: map<string, Json>, key: string): (r: Option<Json>)
    ensures r.Some? <==> key in fields
    ensures r.Some? ==> r.value == fields[key]
  {
    if key in fields then Some(fields[key]) else None
  }

  /**
   * JavaScript truthiness of a property read (`!!obj[key]`): a missing key
   * is `undefined`, and null, false, 0 and "" are falsy; arrays and objects
   * (even empty ones) are truthy.
   */
  predicate Truthy(v: Option<Json>)
  {
    match v
    case None => false
    case Some(JNull) => false
    case Some(JBool(b)) => b
    case Some(JNum(n)) => n != 0
    case Some(JStr(s)) => s != ""
    case Some(JArr(_)) => true
    case Some(JObj(_)) => true
  }

  /** The `type` field of an entry when it holds a string. */
  function TypeOf(e: Json): (r: Option<string>)
    ensures r.Some? <==> e.JObj? && "type" in e.fields && e.fields["type"].JStr?
    ensures r.Some? ==> e.fields["type"] == JStr(r.value)
  {
    if e.JObj? && "type" in e.fields && e.fields["type"].JStr? then Some(e.fields["type"].s) else None
  }

  /** `e.id === id`: the entry is an object whose `id` field is that string. */
  predicate HasId(e: Json, id: string)
  {
    e.JObj? && "id" in e.fields && e.fields["id"] == JStr(id)
  }
}

=== FILE: legacy_units.dfy ===
/**
 * utils/units.ts: the older copy of the weight, volume and currency
 * converters.  Its volume and currency converters have no zero case.
 */
module LegacyUnits {
  import opened Wrappers
  import opened UnitFormat
  import opened Decimal
  import Weight
  import Volume
  import Currency

  /** The `weight` validator, `^\d+ (m|k)?g$`. */
  predicate IsWeight(s: string)
  {
    Accepts(s, {"mg", "g", "kg"})
  }

  /** The `volume` validator, `^\d+ (ml|L)$`. */
  predicate IsVolume(s: string)
  {
    Accepts(s, {"ml", "L"})
  }

  /** The `currency` validator, `^\d+ (cent|USD|kUSD)$`. */
  predicate IsCurrency(s: string)
  {
    Accepts(s, {"cent", "USD", "kUSD"})
  }
  /** Each older validator accepts exactly digits, one space and one of its units. */
  lemma ValidatorsIffParse(s: string)
    ensures IsWeight(s) <==> ParseTagged(s).Some? && ParseTagged(s).value.1 in {"mg", "g", "kg"}
    ensures IsVolume(s) <==> ParseTagged(s).Some? && ParseTagged(s).value.1 in {"ml", "L"}
    ensures IsCurrency(s) <==> ParseTagged(s).Some? && ParseTagged(s).value.1 in {"cent", "USD", "kUSD"}
  {
    AcceptsIffParses(s, {"mg", "g", "kg"});
    AcceptsIffParses(s, {"ml", "L"});
    AcceptsIffParses(s, {"cent", "USD", "kUSD"});
  }


  const Usd: nat := 100
  const Kusd: nat := 1_000 * Usd

  /**
   * `fromLegacyWeight`: one legacy unit is one gram; gives g or kg.  For a
   * negative `g` the remainder `g % 1000` is negative or -0, and neither is
   * the literal pattern 0, so the gram branch writes the number with its sign.
   */
  function FromLegacyWeight(g: int): (r: string)
    ensures g >= 0 ==> IsWeight(r) && Quantity(r, Weight.Milligrams) == Some(g * 1000)
    ensures g >= 0 && g % 1000 == 0 ==> ParseTagged(r) == Some((g / 1000, "kg"))
    ensures g >= 0 && g % 1000 != 0 ==> ParseTagged(r) == Some((g, "g"))
    ensures g < 0 ==> r == IntToString(g) + " g" && !IsWeight(r)
  {
    if g < 0 then
      SignedRejected(IntToString(g) + " g", {"mg", "g", "kg"});
      IntToString(g) + " g"
    else if g % 1000 == 0 then
      ExactDivision(g, 1000, 1000);
      RenderFacts(g / 1000, "kg", {"mg", "g", "kg"}, Weight.Milligrams);
      Render(g / 1000, "kg")
    else
      RenderFacts(g, "g", {"mg", "g", "kg"}, Weight.Milligrams);
      Render(g, "g")
  }

  /**
   * `fromLegacyVolume`: litres when the millilitre amount 250·x is a multiple
   * of 1000 (zero included), millilitres otherwise.  For a negative `x` the
   * remainder is negative or -0, which the literal pattern 0 does not match,
   * so even whole litres are written as signed millilitres.
   */
  function FromLegacyVolume(x: int): (r: string)
    ensures x >= 0 ==> IsVolume(r) && Quantity(r, Volume.Millilitres) == Some(250 * x)
    ensures x >= 0 && x % 4 == 0 ==> ParseTagged(r) == Some((x / 4, "L"))
    ensures x >= 0 && x % 4 != 0 ==> ParseTagged(r) == Some((250 * x, "ml"))
    ensures x < 0 ==> r == IntToString(250 * x) + " ml" && !IsVolume(r)
  {
    if x < 0 then
      SignedRejected(IntToString(250 * x) + " ml", {"ml", "L"});
      IntToString(250 * x) + " ml"
    else
      var ml := 250 * x;
      Volume.MultipleOfLitre(x);
      if ml % 1000 == 0 then
        RenderFacts(ml / 1000, "L", {"ml", "L"}, Volume.Millilitres);
        Render(ml / 1000, "L")
      else
        RenderFacts(ml, "ml", {"ml", "L"}, Volume.Millilitres);
        Render(ml, "ml")
  }

  /**
   * `fromLegacyCurrency`: the first of kUSD, USD and cent that divides.  The
   * tests use `===`, for which -0 equals 0, so a negative amount takes the
   * same branch as its absolute value and is written with its sign.
   */
  function FromLegacyCurrency(c: int): (r: string)
    ensures c >= 0 ==> IsCurrency(r) && Quantity(r, Currency.Cents) == Some(c)
    ensures c >= 0 && c % Kusd == 0 ==> ParseTagged(r) == Some((c / Kusd, "kUSD"))
    ensures c >= 0 && c % Kusd != 0 && c % Usd == 0 ==> ParseTagged(r) == Some((c / Usd, "USD"))
    ensures c >= 0 && c % Usd != 0 ==> ParseTagged(r) == Some((c, "cent"))
    ensures c < 0 && c % Kusd == 0 ==> r == IntToString(c / Kusd) + " kUSD" && !IsCurrency(r)
    ensures c < 0 && c % Kusd != 0 && c % Usd == 0 ==> r == IntToString(c / Usd) + " USD" && !IsCurrency(r)
    ensures c < 0 && c % Usd != 0 ==> r == IntToString(c) + " cent" && !IsCurrency(r)
  {
    assert Currency.Cents == map["cent" := 1, "USD" := Usd, "kUSD" := Kusd];
    KusdIsWholeUsd(c);
    if c < 0 then
      NegativeCurrency(c)
    else if c % Kusd == 0 then
      ExactDivision(c, Kusd, 1);
      RenderFacts(c / Kusd, "kUSD", {"cent", "USD", "kUSD"}, Currency.Cents);
      Render(c / Kusd, "kUSD")
    else if c % Usd == 0 then
      ExactDivision(c, Usd, 1);
      RenderFacts(c / Usd, "USD", {"cent", "USD", "kUSD"}, Currency.Cents);
      Render(c / Usd, "USD")
    else
      RenderFacts(c, "cent", {"cent", "USD", "kUSD"}, Currency.Cents);
      Render(c, "cent")
  }

  /** The signed branch of `fromLegacyCurrency`. */
  function NegativeCurrency(c: int): (r: string)
    requires c < 0
    ensures c % Kusd == 0 ==> r == IntToString(c / Kusd) + " kUSD"
    ensures c % Kusd != 0 && c % Usd == 0 ==> r == IntToString(c / Usd) + " USD"
    ensures c % Usd != 0 ==> r == IntToString(c) + " cent"
    ensures !IsCurrency(r)
  {
    KusdIsWholeUsd(c);
    if c % Kusd == 0 then SignedAmount(c / Kusd, "kUSD", c, Kusd)
    else if c % Usd == 0 then SignedAmount(c / Usd, "USD", c, Usd)
    else SignedAmount(c, "cent", c, 1)
  }

  /** A whole number of kUSD is a whole number of USD. */
  lemma KusdIsWholeUsd(c: int)
    ensures c % Kusd == 0 ==> c % Usd == 0
  {
    if c % Kusd == 0 {
      var q := c / Kusd;
      assert c == Usd * (1000 * q);
    }
  }

  /** `${q} ${unit}` for the quotient q of a negative amount, which the validator rejects. */
  function SignedAmount(q: int, unit: string, c: int, d: nat): (r: string)
    requires c < 0 && d > 0 && q == c / d
    ensures r == IntToString(q) + " " + unit
    ensures !IsCurrency(r)
  {
    var k := c % d;
    assert c == d * q + k && 0 <= k < d;
    assert q < 0;
    SignedRejected(IntToString(q) + " " + unit, {"cent", "USD", "kUSD"});
    IntToString(q) + " " + unit
  }

  /** A negative weight is a signed gram string, even a whole number of kilograms. */
  lemma ExampleNegativeWeight()
    ensures FromLegacyWeight(-2000) == "-2000 g"
  {
    assert IntToString(-2000) == "-" + NatToString(2000);
    Decimal.Writes2000();
  }

  /** A negative whole number of litres is written in millilitres. */
  lemma ExampleNegativeVolume()
    ensures FromLegacyVolume(-4) == "-1000 ml"
  {
    assert IntToString(-1000) == "-" + NatToString(1000);
    assert NatToString(1000) == "1000";
  }

  /** A negative whole number of dollars is a signed USD string. */
  lemma ExampleNegativeCurrency()
    ensures FromLegacyCurrency(-200) == "-2 USD"
  {
    assert -200 / Usd == -2 && -200 % Kusd != 0 && -200 % Usd == 0;
    assert IntToString(-2) == "-" + NatToString(2);
  }

  /** Both copies of each validator accept the same strings. */
  lemma ValidatorsAgree(s: string)
    ensures IsWeight(s) <==> Weight.IsWeight(s)
    ensures IsVolume(s) <==> Volume.IsVolume(s)
    ensures IsCurrency(s) <==> Currency.IsCurrency(s)
  {
  }

  /** The two weight converters agree on every input. */
  lemma WeightAgrees(g: nat)
    ensures FromLegacyWeight(g) == Weight.FromLegacyWeight(g)
  {
  }

  /** The two volume converters agree except at zero: "0 L" here, "0 ml" there. */
  lemma VolumeAgreesAwayFromZero(x: nat)
    ensures x != 0 ==> FromLegacyVolume(x) == Volume.FromLegacyVolume(x)
    ensures FromLegacyVolume(0) == "0 L" != Volume.FromLegacyVolume(0)
  {
    Volume.MultipleOfLitre(x);
    var ml := 250 * x;
    assert ml == x * 250;
    if x != 0 {
      if ml % 1000 == 0 {
        assert FromLegacyVolume(x) == Render(ml / 1000, "L");
        assert Volume.FromLegacyVolume(x) == Render(ml / 1000, "L");
      } else {
        assert FromLegacyVolume(x) == Render(ml, "ml");
        assert Volume.FromLegacyVolume(x) == Render(ml, "ml");
      }
    }
    Volume.MultipleOfLitre(0);
    assert FromLegacyVolume(0) == Render(0, "L");
  }

  /** The two currency converters agree except at zero: "0 kUSD" here, "0 cent" there. */
  lemma CurrencyAgreesAwayFromZero(c: nat)
    ensures c != 0 ==> FromLegacyCurrency(c) == Currency.FromLegacyCurrency(c)
    ensures FromLegacyCurrency(0) == "0 kUSD" != Currency.FromLegacyCurrency(0)
  {
  }
}

=== FILE: maybe_add.dfy ===
/** utils/inherit/maybe_add.ts: a one-field record, or none when the value is empty. */
module MaybeAdd {
  import opened JsonValue

  /** `Object.keys(x).length` for an array (its indices) or an object. */
  function KeyCount(x: Json): nat
    requires x.JArr? || x.JObj?
  {
    if x.JArr? then |x.items| else |x.fields|
  }

  /** `maybeAdd(field)(x)` */
  function MaybeAdd(field: string, x: Json): (r: map<string, Json>)
    requires x.JArr? || x.JObj?
    ensures r.Keys <= {field}
    ensures field in r <==> (x.JArr? && x.items != []) || (x.JObj? && x.fields != map[])
    ensures field in r ==> r[field] == x
  {
    if KeyCount(x) == 0 then map[] else map[field := x]
  }

  /** `{ ...base, ...maybeAdd(field)(x) }` leaves every other key of base alone. */
  lemma SpreadKeepsOtherKeys(base: map<string, Json>, field: string, x: Json)
    requires x.JArr? || x.JObj?
    ensures forall k :: k != field ==> (k in base + MaybeAdd(field, x) <==> k in base)
    ensures forall k :: k != field && k in base ==> (base + MaybeAdd(field, x))[k] == base[k]
  {
  }

  /** The doc comment's examples. */
  lemma DocExamples()
    ensures map["a" := JNum(1)] + MaybeAdd("b", JArr([])) == map["a" := JNum(1)]
    ensures map["a" := JNum(1)] + MaybeAdd("b", JObj(map[])) == map["a" := JNum(1)]
    ensures map["a" := JNum(1)] + MaybeAdd("b", JArr([JNum(2)])) == map["a" := JNum(1), "b" := JArr([JNum(2)])]
  {
  }
}

=== FILE: param_to_param.dfy ===
/**
 * examples/param_to_param.ts: an entry schema that rewrites four legacy
 * fields into their newer forms — numeric weight and volume into unit
 * strings, a plain name into a translatable `{ str_sp }` object, a single
 * material into a one-element list — and passes every other field through.
 */
module ParamToParam {
  import opened Wrappers
  import opened JsonValue
  import Decimal
  import UnitFormat
  import Weight
  import Volume
  import Transform

  /**
   * `fromLegacyWeight` applied to any integer.  For a negative `g` the
   * remainder `g % 1000` is negative or -0, neither of which is the literal
   * pattern 0, so the gram branch renders the number with its sign.
   */
  function WeightOfNumber(g: int): (r: string)
    ensures g >= 0 ==> r == Weight.FromLegacyWeight(g) && Weight.IsWeight(r)
    ensures g < 0 ==> r == Decimal.IntToString(g) + " g" && !Weight.IsWeight(r)
  {
    if g >= 0 then Weight.FromLegacyWeight(g)
    else
      UnitFormat.SignedRejected(Decimal.IntToString(g) + " g", Weight.Units);
      Decimal.IntToString(g) + " g"
  }

  /**
   * `fromLegacyVolume` applied to any integer.  For a negative `x` the
   * amount 250·x is non-zero; `ml % 1000 === 0` holds for -0 too, so whole
   * litres still render as litres, with their sign.
   */
  function VolumeOfNumber(x: int): (r: string)
    ensures x >= 0 ==> r == Volume.FromLegacyVolume(x) && Volume.IsVolume(r)
    ensures x < 0 && x % 4 == 0 ==> r == Decimal.IntToString(x / 4) + " L" && !Volume.IsVolume(r)
    ensures x < 0 && x % 4 != 0 ==> r == Decimal.IntToString(250 * x) + " ml" && !Volume.IsVolume(r)
  {
    if x >= 0 then Volume.FromLegacyVolume(x)
    else
      var ml := x * 250;
      var q, m := x / 4, x % 4;
      assert x == 4 * q + m && ml == 1000 * q + 250 * m;
      if m == 0 then
        assert ml / 1000 == q;
        UnitFormat.SignedRejected(Decimal.IntToString(q) + " L", Volume.Units);
        Decimal.IntToString(ml / 1000) + " L"
      else
        assert ml % 1000 != 0;
        UnitFormat.SignedRejected(Decimal.IntToString(ml) + " ml", Volume.Units);
        Decimal.IntToString(ml) + " ml"
  }

  /** `mapWeightSchema`: numbers become weight strings, anything else is kept. */
  function MapWeight(v: Json): (r: Json)
    ensures v.JNum? ==> r == JStr(WeightOfNumber(v.n))
    ensures v.JNum? && v.n >= 0 ==> r.JStr? && Weight.IsWeight(r.s)
    ensures !v.JNum? ==> r == v
  {
    match v
    case JNum(g) => JStr(WeightOfNumber(g))
    case _ => v
  }

  /** `volumeMapSchema`: numbers become volume strings, anything else is kept. */
  function MapVolume(v: Json): (r: Json)
    ensures v.JNum? ==> r == JStr(VolumeOfNumber(v.n))
    ensures v.JNum? && v.n >= 0 ==> r.JStr? && Volume.IsVolume(r.s)
    ensures !v.JNum? ==> r == v
  {
    match v
    case JNum(x) => JStr(VolumeOfNumber(x))
    case _ => v
  }

  /** `mapNameSchema`: a plain string becomes `{ str_sp: <string> }`. */
  function MapName(v: Json): (r: Json)
    ensures v.JStr? ==> r.JObj? && r.fields.Keys == {"str_sp"} && r.fields["str_sp"] == v
    ensures !v.JStr? ==> r == v
  {
    match v
    case JStr(s) => JObj(map["str_sp" := JStr(s)])
    case _ => v
  }

  /** `mapMaterialSchema`: a single string becomes a one-element list. */
  function MapMaterial(v: Json): (r: Json)
    ensures v.JStr? ==> r == JArr([v])
    ensures !v.JStr? ==> r == v
  {
    match v
    case JStr(s) => JArr([JStr(s)])
    case _ => v
  }

  /** Each field mapper leaves its own output alone. */
  lemma MappersIdempotent(v: Json)
    ensures MapWeight(MapWeight(v)) == MapWeight(v)
    ensures MapVolume(MapVolume(v)) == MapVolume(v)
    ensures MapName(MapName(v)) == MapName(v)
    ensures MapMaterial(MapMaterial(v)) == MapMaterial(v)
  {
  }

  /** The fields `paramSchema` names. */
  const ParamKeys: set<string> := {"weight", "volume", "name", "material"}

  function MapField(k: string, v: Json): Json
  {
    if k == "weight" then MapWeight(v)
    else if k == "volume" then MapVolume(v)
    else if k == "name" then MapName(v)
    else if k == "material" then MapMaterial(v)
    else v
  }

  /**
   * `paramSchema.safeParse`: objects only; each of the four fields, when
   * present, goes through its mapper; other fields pass through.
   */
  function ParamSchema(x: Json): (r: Option<Json>)
    ensures r.Some? <==> x.JObj?
    ensures r.Some? ==> r.value.JObj? && r.value.fields.Keys == x.fields.Keys
    ensures r.Some? ==> forall k :: k in x.fields && k !in ParamKeys ==> r.value.fields[k] == x.fields[k]
    ensures r.Some? && "weight" in x.fields ==> r.value.fields["weight"] == MapWeight(x.fields["weight"])
    ensures r.Some? && "volume" in x.fields ==> r.value.fields["volume"] == MapVolume(x.fields["volume"])
    ensures r.Some? && "name" in x.fields ==> r.value.fields["name"] == MapName(x.fields["name"])
    ensures r.Some? && "material" in x.fields ==> r.value.fields["material"] == MapMaterial(x.fields["material"])
  {
    match x
    case JObj(f) => Some(JObj(map k | k in f :: MapField(k, f[k])))
    case _ => None
  }

  /** Running the schema over its own output changes nothing more. */
  lemma ParamSchemaIdempotent(x: Json)
    requires x.JObj?
    ensures ParamSchema(ParamSchema(x).value) == ParamSchema(x)
  {
    var y := ParamSchema(x).value;
    forall k | k in y.fields
      ensures MapField(k, y.fields[k]) == y.fields[k]
    {
      MappersIdempotent(x.fields[k]);
    }
    assert ParamSchema(y).value.fields == y.fields;
  }

  /**
   * Through `schemaTransformer` the merge adds nothing: every rewritten
   * field's old value is not an object, so the schema's output replaces it.
   */
  lemma TransformerAppliesSchema(x: Json)
    requires x.JObj?
    ensures Transform.TransformEntry(ParamSchema, x) == Some(ParamSchema(x).value)
  {
    var y := ParamSchema(x).value;
    Transform.MergeOverSameKeys(x.fields, y.fields);
  }

  /** The documented weight example: 123 legacy units are "123 g". */
  lemma WeightDocExample()
    ensures MapWeight(JNum(123)) == JStr("123 g")
  {
    assert MapWeight(JNum(123)) == JStr(Weight.FromLegacyWeight(123));
    assert Weight.FromLegacyWeight(123) == UnitFormat.Render(123, "g");
    Decimal.Writes123();
  }

  /** The other documented examples: volume, name and material. */
  lemma DocExamples()
    ensures MapVolume(JNum(4)) == JStr("1 L")
    ensures MapName(JStr("name")) == JObj(map["str_sp" := JStr("name")])
    ensures MapMaterial(JStr("nanite")) == JArr([JStr("nanite")])
  {
    assert MapVolume(JNum(4)) == JStr(Volume.FromLegacyVolume(4));
    Volume.ExampleLitre();
  }

  /** A negative weight gives a signed gram string the validator rejects. */
  lemma NegativeWeightExample()
    ensures MapWeight(JNum(-2000)) == JStr("-2000 g")
  {
    assert Decimal.IntToString(-2000) == "-" + Decimal.NatToString(2000);
    Decimal.Writes2000();
  }

  /** A negative multiple of four gives a signed litre string. */
  lemma NegativeVolumeExample()
    ensures MapVolume(JNum(-4)) == JStr("-1 L")
  {
    assert -4 % 4 == 0 && -4 / 4 == -1;
    assert MapVolume(JNum(-4)) == JStr(Decimal.IntToString(-1) + " L");
  }
}

=== FILE: params_to_params.dfy ===
/**
 * examples/params_to_params_test.ts: a schema that folds the two legacy
 * fields `damage` and `pierce` into one `damage` object of bullet type.
 */
module ParamsToParams {
  import opened Wrappers
  import opened JsonValue
  import Transform

  /** `{ damage_type: "bullet", amount, armor_penetration }` */
  function BulletDamage(amount: Json, pierce: Json): Json
  {
    JObj(map["damage_type" := JStr("bullet"), "amount" := amount, "armor_penetration" := pierce])
  }

  /**
   * `mergeDamageSchema.safeParse`: objects only.  The pattern spreads the
   * entry itself over its `P.number` wildcards, so it matches any entry that
   * has both keys, whatever they hold; the match then replaces `damage` and
   * drops `pierce`.  Any other object is returned as it is.
   */
  function MergeDamageSchema(x: Json): (r: Option<Json>)
    ensures r.Some? <==> x.JObj?
    ensures r.Some? && !("damage" in x.fields && "pierce" in x.fields) ==> r == Some(x)
    ensures r.Some? && "damage" in x.fields && "pierce" in x.fields ==>
      && r.value.JObj?
      && r.value.fields.Keys == x.fields.Keys - {"pierce"}
      && r.value.fields["damage"] == BulletDamage(x.fields["damage"], x.fields["pierce"])
      && (forall k :: k in x.fields && k != "damage" && k != "pierce" ==> r.value.fields[k] == x.fields[k])
  {
    match x
    case JObj(f) =>
      if "damage" in f && "pierce" in f then
        Some(JObj((f - {"pierce"})["damage" := BulletDamage(f["damage"], f["pierce"])]))
      else Some(x)
    case _ => None
  }

  /** Once merged, an entry has no `pierce` left, so a second run changes nothing. */
  lemma MergeIdempotent(x: Json)
    requires x.JObj?
    ensures MergeDamageSchema(MergeDamageSchema(x).value) == MergeDamageSchema(x)
  {
  }

  /** The cases the test file asserts. */
  lemma TestCases()
    ensures MergeDamageSchema(JObj(map["damage" := JNum(60), "pierce" := JNum(46)]))
         == Some(JObj(map["damage" := BulletDamage(JNum(60), JNum(46))]))
    ensures var x := JObj(map["damage" := JNum(30), "foo" := JArr([JNum(1), JNum(2), JNum(3)]), "bar" := JStr("barbaz")]);
      MergeDamageSchema(x) == Some(x)
    ensures var x := JObj(map["damage" := BulletDamage(JNum(60), JNum(46))]);
      MergeDamageSchema(x) == Some(x)
  {
    var f := map["damage" := JNum(60), "pierce" := JNum(46)];
    assert (f - {"pierce"})["damage" := BulletDamage(JNum(60), JNum(46))] == map["damage" := BulletDamage(JNum(60), JNum(46))];
  }

  /** The "merge complex armor params" case: other fields are kept. */
  lemma FullEntry()
    ensures var foo := JArr([JNum(1), JNum(2), JNum(3)]);
      MergeDamageSchema(JObj(map["damage" := JNum(60), "pierce" := JNum(46), "foo" := foo, "bar" := JStr("barbaz")]))
      == Some(JObj(map["damage" := BulletDamage(JNum(60), JNum(46)), "foo" := foo, "bar" := JStr("barbaz")]))
  {
    var foo := JArr([JNum(1), JNum(2), JNum(3)]);
    var f := map["damage" := JNum(60), "pierce" := JNum(46), "foo" := foo, "bar" := JStr("barbaz")];
    var g := map["damage" := BulletDamage(JNum(60), JNum(46)), "foo" := foo, "bar" := JStr("barbaz")];
    var r := MergeDamageSchema(JObj(f)).value.fields;
    assert r.Keys == g.Keys;
    assert r == g;
  }

  /** Any values trigger the merge, not only numbers. */
  lemma NonNumbersMerge()
    ensures MergeDamageSchema(JObj(map["damage" := JStr("x"), "pierce" := JNull]))
         == Some(JObj(map["damage" := BulletDamage(JStr("x"), JNull)]))
  {
    var f := map["damage" := JStr("x"), "pierce" := JNull];
    assert (f - {"pierce"})["damage" := BulletDamage(JStr("x"), JNull)] == map["damage" := BulletDamage(JStr("x"), JNull)];
  }

  /**
   * Run through `schemaTransformer`, the merge cannot delete: the entry's
   * `pierce` survives the deep merge, next to the new `damage` object.
   */
  lemma PierceSurvivesTransformer(x: Json)
    requires x.JObj? && "damage" in x.fields && "pierce" in x.fields
    ensures var r := Transform.TransformEntry(MergeDamageSchema, x).value;
      && r.JObj?
      && r.fields.Keys == x.fields.Keys
      && r.fields["pierce"] == x.fields["pierce"]
      && (!x.fields["damage"].JObj? ==> r.fields["damage"] == BulletDamage(x.fields["damage"], x.fields["pierce"]))
  {
  }
}

=== FILE: parse.dfy ===
/**
 * utils/parse.ts: turning file text into entries, and deciding which paths
 * are read.  The file system is an input: the stat result of a path, the
 * files a directory walk visits, and the text of each file.
 */
module Parse {
  import opened Wrappers
  import opened JsonValue

  /** Why reading a path failed. */
  datatype PathError =
    | NotFound(path: string)          // `Deno.stat` rejects before the match
    | InvalidJsonName(path: string)   // "path ... is not a valid JSON file"
    | NotJsonFileNorDir(path: string) // "path ... is neither JSON file nor directory"

  /** A file's path and text content. */
  datatype Entry = Entry(path: string, text: string)

  /** The part of `Deno.stat` the classification looks at. */
  datatype Stat = Stat(isFile: bool, isDirectory: bool)

  /** One file the directory walk visits, with its basename. */
  datatype WalkEntry = WalkEntry(path: string, name: string)

  /** The file system as seen by the reader. */
  datatype FileSystem = FileSystem(
    stat: string -> Option<Stat>,
    walk: string -> seq<WalkEntry>,
    read: string -> string)

  /**
   * `parseCataJson`: an array is returned as it is, any other value becomes
   * a one-element array.  `parse` is `JSON.parse`; None means it threw.
   */
  function ParseCataJson(parse: string -> Option<Json>, text: string): (r: Option<seq<Json>>)
    ensures r.Some? <==> parse(text).Some?
    ensures r.Some? && parse(text).value.JArr? ==> r.value == parse(text).value.items
    ensures r.Some? && !parse(text).value.JArr? ==> r.value == [parse(text).value]
  {
    match parse(text)
    case None => None
    case Some(v) => Some(Normalise(v))
  }

  /** The single-object-vs-array normalisation on a parsed value. */
  function Normalise(v: Json): (r: seq<Json>)
    ensures v.JArr? ==> r == v.items
    ensures !v.JArr? ==> |r| == 1 && r[0] == v
  {
    if v.JArr? then v.items else [v]
  }

  /** `isValidJson`: the two reserved file names are not data files. */
  predicate IsValidJson(name: string)
  {
    name !in ["default.json", "replacements.json"]
  }

  predicate EndsWith(s: string, suffix: string)
  {
    |suffix| <= |s| && s[|s| - |suffix|..] == suffix
  }

  /** Drops trailing '/' separators. */
  function StripTrailingSlashes(p: string): (r: string)
    ensures |r| <= |p| && r == p[..|r|]
    ensures r == [] || r[|r| - 1] != '/'
    ensures forall i :: |r| <= i < |p| ==> p[i] == '/'
  {
    if p != [] && p[|p| - 1] == '/' then StripTrailingSlashes(p[..|p| - 1]) else p
  }

  /** The part after the last '/'. */
  function LastSegment(p: string): (r: string)
    ensures forall i :: 0 <= i < |r| ==> r[i] != '/'
    ensures EndsWith(p, r)
    ensures |r| == |p| || p[|p| - |r| - 1] == '/'
  {
    if p == [] then [] else if p[|p| - 1] == '/' then [] else LastSegment(p[..|p| - 1]) + [p[|p| - 1]]
  }

  /**
   * `basename` for '/'-separated paths: the last segment once trailing
   * separators are dropped.
   */
  function Basename(p: string): (r: string)
    ensures forall i :: 0 <= i < |r| ==> r[i] != '/'
    ensures EndsWith(StripTrailingSlashes(p), r)
    ensures var q := StripTrailingSlashes(p); |r| == |q| || q[|q| - |r| - 1] == '/'
  {
    LastSegment(StripTrailingSlashes(p))
  }

  /** What `readJSONRec` does with a root path. */
  datatype Action = ReadSingle | WalkDirectory

  /**
   * The ordered match of `readJSONRec`: the stat must succeed; then a
   * reserved basename is rejected, a `.json` file is read, a directory is
   * walked, and anything else is an error.
   */
  function Classify(root: string, stat: Option<Stat>): (r: Result<Action, PathError>)
    ensures stat.None? ==> r == Err(NotFound(root))
    ensures stat.Some? && !IsValidJson(Basename(root)) ==> r == Err(InvalidJsonName(root))
    ensures r == Ok(ReadSingle) <==>
      stat.Some? && IsValidJson(Basename(root)) && stat.value.isFile && EndsWith(root, ".json")
    ensures r == Ok(WalkDirectory) <==>
      stat.Some? && IsValidJson(Basename(root)) && !(stat.value.isFile && EndsWith(root, ".json"))
      && stat.value.isDirectory
    ensures (stat.Some? && IsValidJson(Basename(root)) && !(stat.value.isFile && EndsWith(root, ".json"))
             && !stat.value.isDirectory) ==> r == Err(NotJsonFileNorDir(root))
  {
    match stat
    case None => Err(NotFound(root))
    case Some(s) =>
      if !IsValidJson(Basename(root)) then Err(InvalidJsonName(root))
      else if s.isFile && EndsWith(root, ".json") then Ok(ReadSingle)
      else if s.isDirectory then Ok(WalkDirectory)
      else Err(NotJsonFileNorDir(root))
  }

  /**
   * The files `readDirRecursively` reads: those the walk visits whose path
   * has the `.json` extension and whose name is not reserved, in walk order.
   */
  function SelectWalked(walked: seq<WalkEntry>): (r: seq<string>)
    ensures forall p :: p in r <==> exists w :: w in walked && w.path == p && EndsWith(w.path, ".json") && IsValidJson(w.name)
  {
    if walked == [] then []
    else
      var w := walked[0];
      var rest := SelectWalked(walked[1..]);
      assert forall x :: x in walked <==> x == w || x in walked[1..];
      if EndsWith(w.path, ".json") && IsValidJson(w.name) then [w.path] + rest else rest
  }

  function ToEntries(paths: seq<string>, read: string -> string): (r: seq<Entry>)
    ensures |r| == |paths|
    ensures forall i :: 0 <= i < |r| ==> r[i] == Entry(paths[i], read(paths[i]))
  {
    seq(|paths|, i requires 0 <= i < |paths| => Entry(paths[i], read(paths[i])))
  }

  /** `readJSONRec(root)` */
  function ReadJsonRec(fs: FileSystem, root: string): (r: Result<seq<Entry>, PathError>)
    ensures r.Ok? <==> Classify(root, fs.stat(root)).Ok?
    ensures Classify(root, fs.stat(root)) == Ok(ReadSingle) ==> r == Ok([Entry(root, fs.read(root))])
    ensures Classify(root, fs.stat(root)) == Ok(WalkDirectory) ==>
      r == Ok(ToEntries(SelectWalked(fs.walk(root)), fs.read))
  {
    match Classify(root, fs.stat(root))
    case Err(e) => Err(e)
    case Ok(ReadSingle) => Ok([Entry(root, fs.read(root))])
    case Ok(WalkDirectory) => Ok(ToEntries(SelectWalked(fs.walk(root)), fs.read))
  }

  /**
   * `readJSONsRec(paths)`: every path's entries, flattened; one failing path
   * rejects the whole read.  The model lists them in path order, where the
   * source completes them in any order.
   */
  function ReadJsonsRec(fs: FileSystem, paths: seq<string>): (r: Result<seq<Entry>, PathError>)
    ensures r.Ok? <==> forall i :: 0 <= i < |paths| ==> ReadJsonRec(fs, paths[i]).Ok?
    ensures r.Ok? ==> forall e :: e in r.value <==>
      exists i :: 0 <= i < |paths| && e in ReadJsonRec(fs, paths[i]).value
    ensures r.Ok? ==> r.value == Concat(seq(|paths|, i requires 0 <= i < |paths| => ReadJsonRec(fs, paths[i])))
  {
    var results := seq(|paths|, i requires 0 <= i < |paths| => ReadJsonRec(fs, paths[i]));
    assert |results| == |paths| && forall i :: 0 <= i < |paths| ==> results[i] == ReadJsonRec(fs, paths[i]);
    Gather(results)
  }

  /** The results of several reads: the first failure, or all entries in order. */
  function Gather(results: seq<Result<seq<Entry>, PathError>>): (r: Result<seq<Entry>, PathError>)
    ensures r.Ok? <==> forall i :: 0 <= i < |results| ==> results[i].Ok?
    ensures r.Ok? ==> forall e :: e in r.value <==> exists i :: 0 <= i < |results| && e in results[i].value
    ensures r.Ok? ==> r.value == Concat(results)
  {
    if results == [] then Ok([])
    else
      match results[0]
      case Err(e) => Err(e)
      case Ok(first) =>
        match Gather(results[1..])
        case Err(e) => Err(e)
        case Ok(rest) =>
          assert forall i :: 1 <= i < |results| ==> results[i] == results[1..][i - 1];
          Ok(first + rest)
  }

  /** The entries of several reads, one read's after another's; a failed read adds none. */
  function Concat(results: seq<Result<seq<Entry>, PathError>>): seq<Entry>
  {
    if results == [] then [] else (if results[0].Ok? then results[0].value else []) + Concat(results[1..])
  }

  lemma ReservedNames()
    ensures !IsValidJson("default.json") && !IsValidJson("replacements.json")
    ensures IsValidJson("item.json") && IsValidJson("default.jsonc")
  {
  }

  /** The basename of `dir/name` is `name`. */
  lemma {:induction false} BasenameOfJoin(dir: string, name: string)
    requires name != [] && forall i :: 0 <= i < |name| ==> name[i] != '/'
    ensures Basename(dir + "/" + name) == name
  {
    var p := dir + "/" + name;
    assert StripTrailingSlashes(p) == p;
    LastSegmentOfJoin(dir, name);
  }

  lemma {:induction false} LastSegmentOfJoin(dir: string, name: string)
    requires forall i :: 0 <= i < |name| ==> name[i] != '/'
    ensures LastSegment(dir + "/" + name) == name
  {
    var p := dir + "/" + name;
    if name == [] {
      assert p[|p| - 1] == '/';
    } else {
      var init := name[..|name| - 1];
      assert p[..|p| - 1] == dir + "/" + init;
      LastSegmentOfJoin(dir, init);
      assert init + [name[|name| - 1]] == name;
    }
  }

  /** A reserved basename is rejected even when the path is a directory. */
  lemma ReservedBeforeKind(dir: string, isFile: bool, isDirectory: bool)
    ensures Classify(dir + "/default.json", Some(Stat(isFile, isDirectory))) == Err(InvalidJsonName(dir + "/default.json"))
  {
    assert dir + "/default.json" == dir + "/" + "default.json";
    BasenameOfJoin(dir, "default.json");
  }
}

=== FILE: query.dfy ===
/**
 * utils/query.ts: querying every read file with `schemaFilter`, isolating
 * the files whose text does not parse, choosing what to output, and the
 * mutation-flag listing of its "Find all query mutation flags" script.
 */
module Query {
  import opened Wrappers
  import opened JsonValue
  import Parse
  import Transform

  /** What one file contributes: its filter result, or nothing when the filter throws. */
  function FileResult<T>(schema: Json -> Option<T>, parse: string -> Option<Json>, e: Parse.Entry): (r: seq<T>)
    ensures parse(e.text).None? ==> r == []
    ensures parse(e.text).Some? ==> r == Transform.Accepted(schema, Parse.Normalise(parse(e.text).value))
  {
    match Transform.SchemaFilter(schema, parse, e.text)
    case Some(xs) => xs
    case None => []
  }

  /** The `query` flatMap: each file's results, concatenated in file order. */
  function QueryFiles<T>(schema: Json -> Option<T>, parse: string -> Option<Json>, entries: seq<Parse.Entry>): (r: seq<T>)
    ensures forall y :: y in r ==> exists i :: 0 <= i < |entries| && y in FileResult(schema, parse, entries[i])
  {
    if entries == [] then []
    else
      var rest := QueryFiles(schema, parse, entries[1..]);
      assert forall i :: 1 <= i < |entries| ==> entries[i] == entries[1..][i - 1];
      FileResult(schema, parse, entries[0]) + rest
  }

  /** Querying distributes over the list of files. */
  lemma {:induction false} QueryFilesAppend<T>(
    schema: Json -> Option<T>, parse: string -> Option<Json>, a: seq<Parse.Entry>, b: seq<Parse.Entry>
  )
    ensures QueryFiles(schema, parse, a + b) == QueryFiles(schema, parse, a) + QueryFiles(schema, parse, b)
  {
    if a == [] {
      assert a + b == b;
    } else {
      assert (a + b)[0] == a[0] && (a + b)[1..] == a[1..] + b;
      QueryFilesAppend(schema, parse, a[1..], b);
    }
  }

  /** A file whose text does not parse contributes nothing; the others are still queried. */
  lemma MalformedFileIsSkipped<T>(
    schema: Json -> Option<T>, parse: string -> Option<Json>, a: seq<Parse.Entry>, bad: Parse.Entry, b: seq<Parse.Entry>
  )
    requires parse(bad.text).None?
    ensures QueryFiles(schema, parse, a + [bad] + b) == QueryFiles(schema, parse, a) + QueryFiles(schema, parse, b)
  {
    QueryFilesAppend(schema, parse, a + [bad], b);
    QueryFilesAppend(schema, parse, a, [bad]);
    SingleFile(schema, parse, bad);
  }

  lemma SingleFile<T>(schema: Json -> Option<T>, parse: string -> Option<Json>, e: Parse.Entry)
    ensures QueryFiles(schema, parse, [e]) == FileResult(schema, parse, e)
  {
    assert [e][1..] == [];
  }

  /** What the query command ends with. */
  datatype Outcome = NoMatches | Output(data: Json)

  /**
   * After querying: nothing is output when nothing matched; otherwise the
   * results, passed through `map` only when one is supplied.
   */
  function QueryOutcome(queried: seq<Json>, mapper: Option<seq<Json> -> Json>): (r: Outcome)
    ensures r.NoMatches? <==> queried == []
    ensures queried != [] && mapper.None? ==> r == Output(JArr(queried))
    ensures queried != [] && mapper.Some? ==> r == Output(mapper.value(queried))
  {
    if |queried| == 0 then NoMatches
    else if mapper.None? then Output(JArr(queried))
    else Output(mapper.value(queried))
  }

  /** `outputTo`: string data is written verbatim, anything else serialised. */
  function OutputText(data: Json, stringify: Json -> string): (r: string)
    ensures data.JStr? ==> r == data.s
    ensures !data.JStr? ==> r == stringify(data)
  {
    if data.JStr? then data.s else stringify(data)
  }

  /** The entry count `outputTo` reports. */
  function ReportedCount(data: Json): (r: nat)
    ensures data.JArr? ==> r == |data.items|
    ensures !data.JArr? ==> r == 1
  {
    if data.JArr? then |data.items| else 1
  }

  /** The script's schema: a mutation's `flags` list. */
  function MutationFlagsSchema(x: Json): (r: Option<Json>)
    ensures r.Some? <==> x.JObj? && Get(x.fields, "type") == Some(JStr("mutation"))
                         && "flags" in x.fields && IsStringArray(x.fields["flags"])
    ensures r.Some? ==> r.value == x.fields["flags"]
  {
    if x.JObj? && Get(x.fields, "type") == Some(JStr("mutation")) && "flags" in x.fields && IsStringArray(x.fields["flags"])
    then Some(x.fields["flags"]) else None
  }

  predicate IsStringArray(v: Json)
  {
    v.JArr? && forall i :: 0 <= i < |v.items| ==> v.items[i].JStr?
  }

  /** `xss.flat()`: array elements are spread one level, others kept. */
  function Flat(xss: seq<Json>): (r: seq<Json>)
    ensures forall x :: x in r <==> exists i :: 0 <= i < |xss| && (if xss[i].JArr? then x in xss[i].items else x == xss[i])
  {
    if xss == [] then []
    else
      var rest := Flat(xss[1..]);
      assert forall i :: 1 <= i < |xss| ==> xss[i] == xss[1..][i - 1];
      (if xss[0].JArr? then xss[0].items else [xss[0]]) + rest
  }

  /** `flat()` works element by element, so it distributes over `+`. */
  lemma {:induction false} FlatAppend(a: seq<Json>, b: seq<Json>)
    ensures Flat(a + b) == Flat(a) + Flat(b)
  {
    if a == [] {
      assert a + b == b;
    } else {
      assert (a + b)[0] == a[0] && (a + b)[1..] == a[1..] + b;
      FlatAppend(a[1..], b);
    }
  }

  /** One element: an array's items in their order, anything else as itself. */
  lemma FlatSingle(x: Json)
    ensures Flat([x]) == if x.JArr? then x.items else [x]
  {
    assert [x][1..] == [];
  }

  predicate Distinct(s: seq<Json>)
  {
    forall i, j :: 0 <= i < j < |s| ==> s[i] != s[j]
  }

  /** The elements of `xs` not in `seen`, each once, at its first occurrence. */
  function DedupFrom(xs: seq<Json>, seen: set<Json>): (r: seq<Json>)
    ensures Distinct(r)
    ensures forall x :: x in r <==> x in xs && x !in seen
  {
    if xs == [] then []
    else if xs[0] in seen then DedupFrom(xs[1..], seen)
    else [xs[0]] + DedupFrom(xs[1..], seen + {xs[0]})
  }

  /** `[...new Set(xs)]` */
  function Dedup(xs: seq<Json>): (r: seq<Json>)
    ensures Distinct(r)
    ensures forall x :: x in r <==> x in xs
  {
    DedupFrom(xs, {})
  }

  /**
   * Set insertion order: adding one more element appends it exactly when it
   * was not seen before.
   */
  lemma {:induction false} DedupFromSnoc(xs: seq<Json>, x: Json, seen: set<Json>)
    ensures DedupFrom(xs + [x], seen) == DedupFrom(xs, seen) + (if x in xs || x in seen then [] else [x])
  {
    if xs == [] {
      assert xs + [x] == [x];
      assert DedupFrom([x], seen) == (if x in seen then [] else [x]) + DedupFrom([], seen + {x});
    } else {
      var ys := xs + [x];
      var h, t := xs[0], xs[1..];
      assert ys[0] == h && ys[1..] == t + [x];
      assert x in xs <==> x == h || x in t;
      if h in seen {
        assert DedupFrom(ys, seen) == DedupFrom(t + [x], seen);
        assert DedupFrom(xs, seen) == DedupFrom(t, seen);
        DedupFromSnoc(t, x, seen);
      } else {
        var seen' := seen + {h};
        assert DedupFrom(ys, seen) == [h] + DedupFrom(t + [x], seen');
        assert DedupFrom(xs, seen) == [h] + DedupFrom(t, seen');
        DedupFromSnoc(t, x, seen');
        assert (x in t || x in seen') <==> (x in xs || x in seen);
      }
    }
  }

  lemma DedupSnoc(xs: seq<Json>, x: Json)
    ensures Dedup(xs + [x]) == Dedup(xs) + (if x in xs then [] else [x])
  {
    DedupFromSnoc(xs, x, {});
  }

  const MutationFlagComment: string :=
    "This trait flag is used by cosmetic trait JSON, with no hardcode usage at present."

  /** `{ id: x, ...mutationFlag }` */
  function FlagEntry(x: Json): Json
  {
    JObj(map["id" := x, "//" := JStr(MutationFlagComment), "type" := JStr("mutation_flag")])
  }

  /** The script's `map`: one mutation_flag entry per distinct flag, first occurrences first. */
  function MutationFlagEntries(xss: seq<Json>): (r: seq<Json>)
    ensures |r| == |Dedup(Flat(xss))|
    ensures forall i :: 0 <= i < |r| ==> r[i] == FlagEntry(Dedup(Flat(xss))[i])
  {
    var flags := Dedup(Flat(xss));
    seq(|flags|, i requires 0 <= i < |flags| => FlagEntry(flags[i]))
  }

  /** Every flag of every list gets exactly one entry: the ids are the distinct flags. */
  lemma MutationFlagIdsDistinct(xss: seq<Json>)
    ensures forall i, j :: 0 <= i < j < |MutationFlagEntries(xss)| ==>
      MutationFlagEntries(xss)[i].fields["id"] != MutationFlagEntries(xss)[j].fields["id"]
    ensures forall i, x :: 0 <= i < |xss| && xss[i].JArr? && x in xss[i].items ==>
      exists k :: 0 <= k < |MutationFlagEntries(xss)| && MutationFlagEntries(xss)[k].fields["id"] == x
  {
    var r := MutationFlagEntries(xss);
    var flags := Dedup(Flat(xss));
    forall i, x | 0 <= i < |xss| && xss[i].JArr? && x in xss[i].items
      ensures exists k :: 0 <= k < |r| && r[k].fields["id"] == x
    {
      assert x in Flat(xss);
      var k :| 0 <= k < |flags| && flags[k] == x;
      assert r[k].fields["id"] == x;
    }
  }
}

=== FILE: replace_with.dfy ===
/**
 * tools/replace_with.ts: finding an entry by id across parsed files, and
 * replacing the entries with that id by the one from another file.
 */
module ReplaceWith {
  import opened Wrappers
  import opened JsonValue
  import Parse
  import Transform

  /** A file's path and its entries. */
  datatype ParsedEntry = ParsedEntry(path: string, parsed: seq<Json>)

  /** `cataWithId.safeParse`: an object with a string id, kept whole (passthrough). */
  function CataWithId(x: Json): (r: Option<Json>)
    ensures r.Some? <==> x.JObj? && "id" in x.fields && x.fields["id"].JStr?
    ensures r.Some? ==> r.value == x
  {
    if x.JObj? && "id" in x.fields && x.fields["id"].JStr? then Some(x) else None
  }

  /**
   * `parseIds` as written: it hands each file's raw text to
   * `schemaTransformer`, which calls `.map` on it; a string has no `map`, so
   * the call throws for the first file, and only an empty list gets through.
   */
  function ParseIdsAsWritten(entries: seq<Parse.Entry>): (r: Option<seq<ParsedEntry>>)
    ensures r.Some? ==> r.value == []
    ensures entries == [] ==> r == Some([])
  {
    if entries == [] then Some([]) else None
  }

  /** No file is ever parsed by the code as written. */
  lemma ParseIdsAsWrittenThrows(entries: seq<Parse.Entry>)
    requires entries != []
    ensures ParseIdsAsWritten(entries).None?
  {
  }

  /**
   * One file of `parseIds` as intended, `schemaTransformer(cataWithId)` over
   * `parseCataJson(text)`: None when the text does not parse.  The schema
   * passes an accepted entry through whole and a rejected one is left as it
   * is, so the file keeps every entry unchanged.
   */
  function ParseFile(parse: string -> Option<Json>, text: string): (r: Option<seq<Json>>)
    ensures r.Some? <==> parse(text).Some?
    ensures r.Some? ==> r.value == Parse.Normalise(parse(text).value)
  {
    match Parse.ParseCataJson(parse, text)
    case None => None
    case Some(entries) =>
      Transform.IdentityOnAccepted(CataWithId, entries);
      Some(Transform.SchemaTransformer(CataWithId, entries).value)
  }

  /** `parseIds` as intended: every file with its path and all its entries. */
  function ParseIds(parse: string -> Option<Json>, entries: seq<Parse.Entry>): (r: Option<seq<ParsedEntry>>)
    ensures r.Some? <==> forall i :: 0 <= i < |entries| ==> parse(entries[i].text).Some?
    ensures r.Some? ==> |r.value| == |entries|
    ensures r.Some? ==> forall i :: 0 <= i < |entries| ==>
      r.value[i] == ParsedEntry(entries[i].path, Parse.Normalise(parse(entries[i].text).value))
  {
    if forall i :: 0 <= i < |entries| ==> parse(entries[i].text).Some? then
      Some(seq(|entries|, i requires 0 <= i < |entries| =>
        ParsedEntry(entries[i].path, ParseFile(parse, entries[i].text).value)))
    else None
  }

  /**
   * With the repaired `parseIds`, the write puts back the whole file it
   * came from: one entry for each of the file's entries, the ones with the
   * id replaced and every other entry, id-less ones included, as it was.
   */
  lemma {:induction false} WriteKeepsOtherEntries(
    parse: string -> Option<Json>, replaceFiles: seq<Parse.Entry>, usingEntries: seq<ParsedEntry>, id: string
  )
    requires ParseIds(parse, replaceFiles).Some?
    requires WriteReplaceWith(ParseIds(parse, replaceFiles).value, usingEntries, id).Wrote?
    ensures exists i :: 0 <= i < |replaceFiles| && IsRewriteOf(
      WriteReplaceWith(ParseIds(parse, replaceFiles).value, usingEntries, id).write, replaceFiles[i], parse, id)
  {
    var ids := ParseIds(parse, replaceFiles).value;
    var w := WriteReplaceWith(ids, usingEntries, id).write;
    var target := FindId(ids, id).value.value;
    var source := FindId(usingEntries, id).value.value;
    var i := FirstHolding(ids, id);
    var before := Parse.Normalise(parse(replaceFiles[i].text).value);
    assert target == ParsedEntry(replaceFiles[i].path, before);
    assert ReplaceWith(before, source.parsed, id) == Ok(w.entries);
    assert IsRewriteOf(w, replaceFiles[i], parse, id);
  }

  /** `w` rewrites `file`: same path, and each entry without the id unchanged. */
  predicate IsRewriteOf(w: Write, file: Parse.Entry, parse: string -> Option<Json>, id: string)
  {
    && parse(file.text).Some?
    && var before := Parse.Normalise(parse(file.text).value);
    && w.path == file.path
    && |w.entries| == |before|
    && forall j :: 0 <= j < |before| && !HasId(before[j], id) ==> w.entries[j] == before[j]
  }

  /** `parsed.some(({ id }) => id === idToFind)` when nothing throws. */
  predicate Holds(p: ParsedEntry, id: string)
  {
    exists j :: 0 <= j < |p.parsed| && HasId(p.parsed[j], id)
  }

  /** The `TypeError` that destructuring `{ id }` out of a null entry throws. */
  const NullDestructureError := "Cannot destructure property 'id' of 'object null' as it is null."

  /**
   * A scan for the id reaches no null before its first hit, so the
   * destructuring callback never meets one (null never has the id).
   */
  predicate Clean(parsed: seq<Json>, id: string)
  {
    FirstWithId(parsed, id) <= FirstNull(parsed)
  }

  /**
   * `parsed.some(({ id }) => id === idToFind)`: element by element, a null
   * throws, a hit stops the scan with true.
   */
  function AnyWithId(parsed: seq<Json>, id: string): (r: Result<bool, string>)
    ensures r.Err? <==> !Clean(parsed, id)
    ensures r.Err? ==> r.error == NullDestructureError
    ensures r.Ok? ==> (r.value <==> exists j :: 0 <= j < |parsed| && HasId(parsed[j], id))
  {
    if parsed == [] then Ok(false)
    else if parsed[0].JNull? then Err(NullDestructureError)
    else if HasId(parsed[0], id) then Ok(true)
    else
      var r := AnyWithId(parsed[1..], id);
      assert forall j :: 0 < j < |parsed| ==> parsed[j] == parsed[1..][j - 1];
      r
  }

  /** Index of the first file holding the id, or |ids| when none does. */
  function FirstHolding(ids: seq<ParsedEntry>, id: string): (i: nat)
    ensures i <= |ids|
    ensures i < |ids| ==> Holds(ids[i], id)
    ensures forall j :: 0 <= j < i ==> !Holds(ids[j], id)
  {
    if ids == [] then 0
    else if Holds(ids[0], id) then 0
    else 1 + FirstHolding(ids[1..], id)
  }

  /**
   * `findId(ids)(idToFind)`: the files are scanned in order, each with
   * `parsed.some`, up to the first file holding the id; a null met on the way
   * throws.  Otherwise the result is that first file, or none.
   */
  function FindId(ids: seq<ParsedEntry>, id: string): (r: Result<Option<ParsedEntry>, string>)
    ensures r.Err? <==> exists j :: 0 <= j < |ids| && j <= FirstHolding(ids, id) && !Clean(ids[j].parsed, id)
    ensures r.Err? ==> r.error == NullDestructureError
    ensures r.Ok? ==> (r.value.Some? <==> exists i :: 0 <= i < |ids| && Holds(ids[i], id))
    ensures r.Ok? && r.value.Some? ==> r.value.value == ids[FirstHolding(ids, id)]
    ensures r.Ok? && r.value.Some? ==> Holds(r.value.value, id) && Clean(r.value.value.parsed, id)
  {
    if ids == [] then Ok(None)
    else
      assert forall j :: 0 < j < |ids| ==> ids[j] == ids[1..][j - 1];
      match AnyWithId(ids[0].parsed, id)
      case Err(e) => Err(e)
      case Ok(true) => Ok(Some(ids[0]))
      case Ok(false) => FindId(ids[1..], id)
  }

  /** The first entry with the id, found by index. */
  function FirstWithId(parsed: seq<Json>, id: string): (i: nat)
    ensures i <= |parsed|
    ensures i < |parsed| ==> HasId(parsed[i], id)
    ensures forall j :: 0 <= j < i ==> !HasId(parsed[j], id)
  {
    if parsed == [] then 0
    else if HasId(parsed[0], id) then 0
    else 1 + FirstWithId(parsed[1..], id)
  }

  /**
   * `findFromEntry(parsed)(idToFind)`: `find` scans for the first entry with
   * the id, a null met on the way throws, and a miss throws "could not find id".
   */
  function FindFromEntry(parsed: seq<Json>, id: string): (r: Result<Json, string>)
    ensures r.Err? <==> !Clean(parsed, id) || forall j :: 0 <= j < |parsed| ==> !HasId(parsed[j], id)
    ensures r.Err? ==> r.error == if Clean(parsed, id) then "could not find id " + id else NullDestructureError
    ensures r.Ok? ==> exists i :: 0 <= i < |parsed| && parsed[i] == r.value && HasId(r.value, id)
                                  && forall j :: 0 <= j < i ==> !HasId(parsed[j], id)
  {
    if parsed == [] then Err("could not find id " + id)
    else if parsed[0].JNull? then Err(NullDestructureError)
    else if HasId(parsed[0], id) then Ok(parsed[0])
    else
      var r := FindFromEntry(parsed[1..], id);
      assert forall j :: 0 < j < |parsed| ==> parsed[j] == parsed[1..][j - 1];
      r
  }

  /** The `TypeError` that reading `x.id` throws when `x` is null. */
  const NullIdError := "Cannot read properties of null (reading 'id')"

  /** Index of the first null entry, or |xs| when there is none. */
  function FirstNull(xs: seq<Json>): (i: nat)
    ensures i <= |xs|
    ensures i < |xs| ==> xs[i].JNull?
    ensures forall j :: 0 <= j < i ==> !xs[j].JNull?
  {
    if xs == [] then 0 else if xs[0].JNull? then 0 else 1 + FirstNull(xs[1..])
  }

  /**
   * `replaceWith(replace)(using)(idToReplace)`: every entry of `replace` with
   * the id becomes the one from `using`.  It fails when `using` lacks the id,
   * and otherwise when `replace` holds a null, whose `id` cannot be read.
   */
  function ReplaceWith(replace: seq<Json>, using: seq<Json>, id: string): (r: Result<seq<Json>, string>)
    ensures r.Err? <==> FindFromEntry(using, id).Err? || exists i :: 0 <= i < |replace| && replace[i].JNull?
    ensures FindFromEntry(using, id).Err? ==> r == Err(FindFromEntry(using, id).error)
    ensures FindFromEntry(using, id).Ok? && r.Err? ==> r.error == NullIdError
    ensures r.Ok? ==> |r.value| == |replace|
    ensures r.Ok? ==> forall i :: 0 <= i < |replace| ==>
      r.value[i] == if HasId(replace[i], id) then FindFromEntry(using, id).value else replace[i]
  {
    match FindFromEntry(using, id)
    case Err(e) => Err(e)
    case Ok(actual) =>
      if FirstNull(replace) < |replace| then Err(NullIdError)
      else Ok(seq(|replace|, i requires 0 <= i < |replace| => if HasId(replace[i], id) then actual else replace[i]))
  }

  /** When `replace` has no entry with the id, it comes back unchanged. */
  lemma NothingToReplace(replace: seq<Json>, using: seq<Json>, id: string)
    requires forall i :: 0 <= i < |replace| ==> !HasId(replace[i], id) && !replace[i].JNull?
    requires FindFromEntry(using, id).Ok?
    ensures ReplaceWith(replace, using, id) == Ok(replace)
  {
    var r := ReplaceWith(replace, using, id).value;
    assert forall i :: 0 <= i < |replace| ==> r[i] == replace[i];
    assert r == replace;
  }

  /** The write `writeReplaceWith` performs: a path and the entries to serialise there. */
  datatype Write = Write(path: string, entries: seq<Json>)

  /**
   * What `writeReplaceWith` does: write a file, only warn, or reject its
   * promise with the error `replaceWith` throws.
   */
  datatype Outcome = Wrote(write: Write) | Warned | Threw(error: string)

  /**
   * `writeReplaceWith`: the two `findId` calls run first, the replaced side
   * first, and either may throw.  It writes only when both files are found;
   * otherwise it only warns.  A null entry in the replaced file, or one met
   * in the using file, makes `replaceWith` throw before anything is written.
   */
  function WriteReplaceWith(replaceEntries: seq<ParsedEntry>, usingEntries: seq<ParsedEntry>, id: string): (r: Outcome)
    ensures FindId(replaceEntries, id).Err? ==> r == Threw(FindId(replaceEntries, id).error)
    ensures FindId(replaceEntries, id).Ok? && FindId(usingEntries, id).Err? ==> r == Threw(FindId(usingEntries, id).error)
    ensures r.Warned? <==> && FindId(replaceEntries, id).Ok? && FindId(usingEntries, id).Ok?
                           && (FindId(replaceEntries, id).value.None? || FindId(usingEntries, id).value.None?)
    ensures r.Threw? <==> || FindId(replaceEntries, id).Err? || FindId(usingEntries, id).Err?
                          || (&& FindId(replaceEntries, id).value.Some? && FindId(usingEntries, id).value.Some?
                              && exists j :: 0 <= j < |FindId(replaceEntries, id).value.value.parsed|
                                               && FindId(replaceEntries, id).value.value.parsed[j].JNull?)
    ensures r.Threw? && FindId(replaceEntries, id).Ok? && FindId(usingEntries, id).Ok? ==> r.error == NullIdError
    ensures r.Wrote? ==>
      && FindId(replaceEntries, id).Ok? && FindId(usingEntries, id).Ok?
      && FindId(replaceEntries, id).value.Some? && FindId(usingEntries, id).value.Some?
      && r.write.path == FindId(replaceEntries, id).value.value.path
      && ReplaceWith(FindId(replaceEntries, id).value.value.parsed, FindId(usingEntries, id).value.value.parsed, id)
         == Ok(r.write.entries)
  {
    match FindId(replaceEntries, id)
    case Err(e) => Threw(e)
    case Ok(replaceEntry) =>
      (match FindId(usingEntries, id)
       case Err(e) => Threw(e)
       case Ok(usingEntry) =>
         if replaceEntry.Some? && usingEntry.Some? then
           var found := FindFromEntry(usingEntry.value.parsed, id);
           assert found.Ok?;
           (match ReplaceWith(replaceEntry.value.parsed, usingEntry.value.parsed, id)
            case Ok(entries) => Wrote(Write(replaceEntry.value.path, entries))
            case Err(e) => Threw(e))
         else Warned)
  }

  /** A null-only file scanned before the file with the id makes `findId` throw. */
  lemma NullBeforeHitThrows()
    ensures WriteReplaceWith([ParsedEntry("a", [JNull])], [ParsedEntry("b", [JObj(map["id" := JStr("x")])])], "x")
            == Threw(NullDestructureError)
  {
  }

  /** A null in the using file ahead of the id makes `findId` throw there too. */
  lemma NullInUsingThrows()
    ensures WriteReplaceWith(
              [ParsedEntry("a", [JObj(map["id" := JStr("x")])])],
              [ParsedEntry("b", [JNull]), ParsedEntry("c", [JObj(map["id" := JStr("x")])])], "x")
            == Threw(NullDestructureError)
  {
  }
}

=== FILE: resolve_flags.dfy ===
/**
 * utils/inherit/resolve_flags.ts: applies `delete` and `extend` lists to the
 * flag-list fields of an entry, then injects `extend` keys the entry lacks.
 */
module ResolveFlags {
  import opened Wrappers
  import opened JsonValue

  /** Per-field lists of the resolution spec (`Record<string, unknown[]>`). */
  type Flags = map<string, seq<Json>>

  /** `isFlags`: an array of strings (the empty array included). */
  predicate IsFlags(v: Json)
  {
    v.JArr? && forall i :: 0 <= i < |v.items| ==> v.items[i].JStr?
  }

  /** `flags?.[key]` */
  function Lookup(flags: Option<Flags>, key: string): (r: Option<seq<Json>>)
    ensures r.Some? <==> flags.Some? && key in flags.value
    ensures r.Some? ==> r.value == flags.value[key]
  {
    if flags.Some? && key in flags.value then Some(flags.value[key]) else None
  }

  /** `xs.filter((x) => !del.includes(x))` */
  function Without(xs: seq<Json>, del: seq<Json>): (r: seq<Json>)
    ensures |r| <= |xs|
    ensures forall x :: x in r <==> x in xs && x !in del
  {
    if xs == [] then [] else (if xs[0] in del then [] else [xs[0]]) + Without(xs[1..], del)
  }

  /** Filtering keeps the order of the survivors: it distributes over `+`. */
  lemma {:induction false} WithoutAppend(a: seq<Json>, b: seq<Json>, del: seq<Json>)
    ensures Without(a + b, del) == Without(a, del) + Without(b, del)
  {
    if a == [] {
      assert a + b == b;
    } else {
      assert (a + b)[0] == a[0] && (a + b)[1..] == a[1..] + b;
      WithoutAppend(a[1..], b, del);
    }
  }

  /** A list none of whose elements is deleted survives whole. */
  lemma {:induction false} WithoutNone(xs: seq<Json>, del: seq<Json>)
    requires forall i :: 0 <= i < |xs| ==> xs[i] !in del
    ensures Without(xs, del) == xs
  {
    if xs != [] {
      WithoutNone(xs[1..], del);
    }
  }

  function Extension(ext: Option<seq<Json>>): seq<Json>
  {
    if ext.Some? then ext.value else []
  }

  /**
   * `extendThenDelete(ext)(del)(xs)`: despite its name, deletes first, then
   * appends the extension; nothing is de-duplicated.
   */
  function ExtendThenDelete(ext: Option<seq<Json>>, del: Option<seq<Json>>, xs: seq<Json>): (r: seq<Json>)
    ensures |r| >= |Extension(ext)|
    ensures r[|r| - |Extension(ext)|..] == Extension(ext)
    ensures forall x :: x in r <==> (x in xs && !(del.Some? && x in del.value)) || x in Extension(ext)
    // the survivors in input order, then the extension in its own order
    ensures r == (if del.Some? then Without(xs, del.value) else xs) + Extension(ext)
  {
    var deleted := if del.Some? then Without(xs, del.value) else xs;
    var r := deleted + Extension(ext);
    assert r[|deleted|..] == Extension(ext);
    r
  }

  /** The value a field takes in the mapping step. */
  function ResolveValue(v: Json, ext: Option<seq<Json>>, del: Option<seq<Json>>): Json
  {
    if IsFlags(v) then JArr(ExtendThenDelete(ext, del, v.items)) else v
  }

  /** The keys that `extend` injects: those whose entry value is absent or falsy. */
  function Injected(entry: map<string, Json>, ext: Flags): (r: map<string, Json>)
    ensures r.Keys == set k | k in ext && !Truthy(Get(entry, k))
    ensures forall k :: k in r ==> r[k] == JArr(ext[k])
  {
    map k | k in ext && !Truthy(Get(entry, k)) :: JArr(ext[k])
  }

  /** `resolveFlags(entry, { extend, delete })` */
  function ResolveFlags(entry: map<string, Json>, ext: Option<Flags>, del: Option<Flags>): (r: map<string, Json>)
    ensures entry.Keys <= r.Keys
    ensures ext.None? ==> r.Keys == entry.Keys
    ensures ext.Some? ==> r.Keys == entry.Keys + (set k | k in ext.value && !Truthy(Get(entry, k)))
    // a flag list is truthy, so `extend` never overwrites one
    ensures forall k :: k in entry && IsFlags(entry[k]) ==>
      r[k] == JArr(ExtendThenDelete(Lookup(ext, k), Lookup(del, k), entry[k].items))
    ensures forall k :: k in entry && !IsFlags(entry[k]) && Truthy(Some(entry[k])) ==> r[k] == entry[k]
    ensures forall k :: k in entry && !IsFlags(entry[k]) && Lookup(ext, k).None? ==> r[k] == entry[k]
    ensures forall k :: k in r && Lookup(ext, k).Some? && !Truthy(Get(entry, k)) ==> r[k] == JArr(ext.value[k])
  {
    var mapped := map k | k in entry :: ResolveValue(entry[k], Lookup(ext, k), Lookup(del, k));
    match ext
    case None => mapped
    case Some(e) => mapped + Injected(entry, e)
  }

  lemma ExampleDeletions()
    ensures ResolveValue(JArr([JStr("A"), JStr("B")]), None, Some([JStr("A")])) == JArr([JStr("B")])
    ensures ResolveValue(JArr([JStr("X"), JStr("Y")]), None, Some([JStr("B")])) == JArr([JStr("X"), JStr("Y")])
    ensures ResolveValue(JNum(123), None, None) == JNum(123)
  {
    assert [JStr("A"), JStr("B")][1..] == [JStr("B")];
    assert JStr("A") in [JStr("A")];
    assert JStr("B") !in [JStr("A")];
    assert Without([JStr("A"), JStr("B")], [JStr("A")]) == [JStr("B")];
    WithoutNone([JStr("X"), JStr("Y")], [JStr("B")]);
    assert IsFlags(JArr([JStr("A"), JStr("B")])) && IsFlags(JArr([JStr("X"), JStr("Y")]));
    assert [JStr("B")] + [] == [JStr("B")];
    assert [JStr("X"), JStr("Y")] + [] == [JStr("X"), JStr("Y")];
  }

  const ExampleEntry: map<string, Json> :=
    map["a" := JArr([JStr("A"), JStr("B")]), "b" := JArr([JStr("X"), JStr("Y")]), "c" := JNum(123)]
  const ExampleExtend: Flags := map["d" := [JNum(1), JNum(2), JNum(3)]]
  const ExampleDelete: Flags := map["a" := [JStr("A")], "b" := [JStr("B")]]

  /** Field "a" loses the deleted flag "A". */
  lemma ExampleFieldA()
    ensures ResolveFlags(ExampleEntry, Some(ExampleExtend), Some(ExampleDelete))["a"] == JArr([JStr("B")])
  {
    var a := ExampleEntry["a"];
    assert IsFlags(a);
    assert Lookup(Some(ExampleExtend), "a").None?;
    assert Lookup(Some(ExampleDelete), "a") == Some([JStr("A")]);
    ExampleDeletions();
  }

  /** Field "b" keeps both flags: "B" is not among them. */
  lemma ExampleFieldB()
    ensures ResolveFlags(ExampleEntry, Some(ExampleExtend), Some(ExampleDelete))["b"] == JArr([JStr("X"), JStr("Y")])
  {
    var b := ExampleEntry["b"];
    assert IsFlags(b);
    assert Lookup(Some(ExampleExtend), "b").None?;
    assert Lookup(Some(ExampleDelete), "b") == Some([JStr("B")]);
    ExampleDeletions();
  }

  /** The entry's own keys plus the injected "d". */
  lemma ExampleKeys()
    ensures ResolveFlags(ExampleEntry, Some(ExampleExtend), Some(ExampleDelete)).Keys == {"a", "b", "c", "d"}
  {
    assert !Truthy(Get(ExampleEntry, "d"));
    assert (set k | k in ExampleExtend && !Truthy(Get(ExampleEntry, k))) == {"d"};
  }

  /** The number "c" passes through and "d" is injected from `extend`. */
  lemma ExampleOtherFields()
    ensures ResolveFlags(ExampleEntry, Some(ExampleExtend), Some(ExampleDelete))["c"] == JNum(123)
    ensures ResolveFlags(ExampleEntry, Some(ExampleExtend), Some(ExampleDelete))["d"] == JArr([JNum(1), JNum(2), JNum(3)])
  {
    assert !IsFlags(ExampleEntry["c"]) && Lookup(Some(ExampleExtend), "c").None?;
    assert !Truthy(Get(ExampleEntry, "d"));
    ExampleKeys();
  }

  const ExampleExpected: map<string, Json> :=
    map["a" := JArr([JStr("B")]), "b" := JArr([JStr("X"), JStr("Y")]), "c" := JNum(123),
        "d" := JArr([JNum(1), JNum(2), JNum(3)])]

  lemma IsExampleExpected(m: map<string, Json>)
    requires m.Keys == {"a", "b", "c", "d"}
    requires m["a"] == JArr([JStr("B")]) && m["b"] == JArr([JStr("X"), JStr("Y")])
    requires m["c"] == JNum(123) && m["d"] == JArr([JNum(1), JNum(2), JNum(3)])
    ensures m == ExampleExpected
  {
  }

  /** utils/inherit/resolve_flags_test.ts, "delete flags". */
  lemma DeleteFlagsExample()
    ensures ResolveFlags(ExampleEntry, Some(ExampleExtend), Some(ExampleDelete)) == ExampleExpected
  {
    ExampleFieldA();
    ExampleFieldB();
    ExampleKeys();
    ExampleOtherFields();
    IsExampleExpected(ResolveFlags(ExampleEntry, Some(ExampleExtend), Some(ExampleDelete)));
  }

  /** Extension is not de-duplicated against the surviving flags. */
  lemma NoDeduplication()
    ensures ExtendThenDelete(Some([JStr("A")]), None, [JStr("A")]) == [JStr("A"), JStr("A")]
  {
  }
}

=== FILE: transform.dfy ===
/**
 * utils/transform.ts: the two schema policies.  `schemaTransformer` merges a
 * schema's output over each entry it accepts; `schemaFilter` keeps only the
 * outputs of accepted entries.  A schema is its `safeParse`, total: Some of
 * the parsed data on success, None on failure.
 */
module Transform {
  import opened Wrappers
  import opened JsonValue
  import Parse
  import Decimal

  /**
   * The nested step of `deepMerge(a, b, { arrays: "replace" })`, applied to
   * the values two merged records hold under the same key: two objects merge
   * key-wise, recursively, the right side winning; in every other case
   * (arrays included) the right side replaces the left.  The top-level call
   * is MergeEntry.
   */
  function DeepMerge(a: Json, b: Json): (r: Json)
    ensures !(a.JObj? && b.JObj?) ==> r == b
    ensures a.JObj? && b.JObj? ==> r.JObj? && r.fields.Keys == a.fields.Keys + b.fields.Keys
    ensures a.JObj? && b.JObj? ==> forall k :: k in a.fields && k !in b.fields ==> r.fields[k] == a.fields[k]
    ensures a.JObj? && b.JObj? ==> forall k :: k in b.fields && !(k in a.fields && a.fields[k].JObj? && b.fields[k].JObj?) ==>
      r.fields[k] == b.fields[k]
  {
    if a.JObj? && b.JObj? then
      JObj(map k | k in a.fields.Keys + b.fields.Keys ::
        if k in a.fields && k in b.fields then DeepMerge(a.fields[k], b.fields[k])
        else if k in b.fields then b.fields[k]
        else a.fields[k])
    else b
  }

  /** A key holding objects on both sides is merged recursively. */
  lemma NestedObjectsMerge(a: map<string, Json>, b: map<string, Json>, k: string)
    requires k in a && k in b
    ensures DeepMerge(JObj(a), JObj(b)).fields[k] == DeepMerge(a[k], b[k])
  {
  }

  /** Merging a value with itself changes nothing. */
  lemma {:induction false} DeepMergeSelf(a: Json)
    ensures DeepMerge(a, a) == a
  {
    if a.JObj? {
      forall k | k in a.fields
        ensures DeepMerge(a.fields[k], a.fields[k]) == a.fields[k]
      {
        DeepMergeSelf(a.fields[k]);
      }
      assert DeepMerge(a, a).fields == a.fields;
    }
  }

  /**
   * Merging a right side that has every key of the left and, at each key,
   * either the same value or a value that is not an object on both sides,
   * gives the right side.
   */
  lemma MergeOverSameKeys(a: map<string, Json>, b: map<string, Json>)
    requires a.Keys <= b.Keys
    requires forall k :: k in a ==> a[k] == b[k] || !(a[k].JObj? && b[k].JObj?)
    ensures DeepMerge(JObj(a), JObj(b)) == JObj(b)
  {
    var r := DeepMerge(JObj(a), JObj(b));
    forall k | k in b
      ensures r.fields[k] == b[k]
    {
      if k in a && a[k] == b[k] {
        DeepMergeSelf(a[k]);
      }
    }
  }

  /** Distinct indices have distinct decimal names. */
  lemma IndexNamesDistinct()
    ensures forall m: nat, n: nat :: Decimal.NatToString(m) == Decimal.NatToString(n) ==> m == n
  {
    forall m: nat, n: nat | Decimal.NatToString(m) == Decimal.NatToString(n)
      ensures m == n
    {
      Decimal.NatToStringInjective(m, n);
    }
  }

  /**
   * The own enumerable properties `deepMerge` reads from a non-null value:
   * an object's fields; an array's items and a string's characters under
   * their decimal indices; none for a number or a boolean.
   */
  function Record(v: Json): (r: map<string, Json>)
    requires !v.JNull?
    ensures v.JObj? ==> r == v.fields
    ensures v.JNum? || v.JBool? ==> r == map[]
    ensures v.JArr? ==> forall i :: 0 <= i < |v.items| ==>
      Decimal.NatToString(i) in r && r[Decimal.NatToString(i)] == v.items[i]
    ensures v.JStr? ==> forall i :: 0 <= i < |v.s| ==>
      Decimal.NatToString(i) in r && r[Decimal.NatToString(i)] == JStr([v.s[i]])
    ensures v.JArr? ==> forall k :: k in r ==> exists i :: 0 <= i < |v.items| && k == Decimal.NatToString(i)
    ensures v.JStr? ==> forall k :: k in r ==> exists i :: 0 <= i < |v.s| && k == Decimal.NatToString(i)
  {
    match v
    case JObj(fields) => fields
    case JArr(items) => Indexed(items)
    case JStr(s) => Indexed(Chars(s))
    case _ => map[]
  }

  /** A string's characters, each as a one-character string. */
  function Chars(s: string): (r: seq<Json>)
    ensures |r| == |s|
    ensures forall i :: 0 <= i < |s| ==> r[i] == JStr([s[i]])
  {
    if s == [] then [] else [JStr([s[0]])] + Chars(s[1..])
  }

  /** The values under their decimal indices, as an array's own properties. */
  function Indexed(vals: seq<Json>): (r: map<string, Json>)
    ensures forall i :: 0 <= i < |vals| ==> Decimal.NatToString(i) in r && r[Decimal.NatToString(i)] == vals[i]
    ensures forall k :: k in r ==> exists i :: 0 <= i < |vals| && k == Decimal.NatToString(i)
  {
    if vals == [] then map[]
    else
      var n := |vals| - 1;
      var r := Indexed(vals[..n])[Decimal.NatToString(n) := vals[n]];
      IndexNamesDistinct();
      assert forall i :: 0 <= i < n ==> vals[..n][i] == vals[i];
      r
  }

  /**
   * The top-level call `deepMerge(x, parsed, { arrays: "replace" })`: it
   * always builds a fresh object over the own properties of both sides,
   * merged as two objects merge, so it never returns either side itself; a
   * null side throws.
   */
  function MergeEntry(x: Json, parsed: Json): (r: Option<Json>)
    ensures r.None? <==> x.JNull? || parsed.JNull?
    ensures x.JObj? && parsed.JObj? ==> r == Some(DeepMerge(x, parsed))
    ensures r.Some? ==> r.value.JObj? && r.value.fields.Keys == Record(x).Keys + Record(parsed).Keys
    ensures r.Some? ==> forall k :: k in Record(x) && k !in Record(parsed) ==> r.value.fields[k] == Record(x)[k]
    ensures r.Some? ==> forall k :: k in Record(parsed) && !(k in Record(x) && Record(x)[k].JObj? && Record(parsed)[k].JObj?) ==>
      r.value.fields[k] == Record(parsed)[k]
  {
    if x.JNull? || parsed.JNull? then None else Some(DeepMerge(JObj(Record(x)), JObj(Record(parsed))))
  }

  /** At the top level a number is rebuilt as the empty object. */
  lemma MergeNumberExample()
    ensures MergeEntry(JNum(5), JNum(5)) == Some(JObj(map[]))
  {
  }

  /** A string's properties are its characters under their indices. */
  lemma RecordOfString()
    ensures Record(JStr("ab")) == map["0" := JStr("a"), "1" := JStr("b")]
  {
    var chars := Chars("ab");
    assert chars == [JStr("a"), JStr("b")];
    assert chars[..1] == [JStr("a")] && chars[..1][..0] == [];
    assert Decimal.NatToString(0) == "0" && Decimal.NatToString(1) == "1";
    assert Indexed(chars) == Indexed(chars[..1])["1" := JStr("b")];
    assert Indexed(chars[..1]) == map["0" := JStr("a")];
  }

  /** At the top level a string is rebuilt as an object indexed by its characters. */
  lemma MergeStringExample()
    ensures MergeEntry(JStr("ab"), JStr("ab")) == Some(JObj(map["0" := JStr("a"), "1" := JStr("b")]))
  {
    RecordOfString();
    DeepMergeSelf(JObj(Record(JStr("ab"))));
  }

  /** A null entry makes the merge throw. */
  lemma MergeNullExample()
    ensures MergeEntry(JNull, JObj(map[])) == None
  {
  }

  /**
   * One entry through `schemaTransformer`: a rejected entry as it is, an
   * accepted one merged with the schema's output, always into an object;
   * None where the merge throws.
   */
  function TransformEntry(schema: Json -> Option<Json>, x: Json): (r: Option<Json>)
    ensures schema(x).None? ==> r == Some(x)
    ensures r.None? <==> schema(x).Some? && (x.JNull? || schema(x).value.JNull?)
    ensures schema(x).Some? && r.Some? ==> r.value.JObj?
    ensures x.JObj? && schema(x).Some? && schema(x).value.JObj? ==>
      var parsed := schema(x).value.fields;
      && r.Some?
      && r.value.fields.Keys == x.fields.Keys + parsed.Keys
      && (forall k :: k in x.fields && k !in parsed ==> r.value.fields[k] == x.fields[k])
      && (forall k :: k in parsed && !(k in x.fields && x.fields[k].JObj? && parsed[k].JObj?) ==>
            r.value.fields[k] == parsed[k])
  {
    match schema(x)
    case Some(parsed) => MergeEntry(x, parsed)
    case None => Some(x)
  }

  /** `schemaTransformer(schema)(entries)`: None where some entry's merge throws. */
  function SchemaTransformer(schema: Json -> Option<Json>, entries: seq<Json>): (r: Option<seq<Json>>)
    ensures r.Some? <==> forall i :: 0 <= i < |entries| ==> TransformEntry(schema, entries[i]).Some?
    ensures r.Some? ==> |r.value| == |entries|
    ensures r.Some? ==> forall i :: 0 <= i < |entries| ==> r.value[i] == TransformEntry(schema, entries[i]).value
  {
    if forall i :: 0 <= i < |entries| ==> TransformEntry(schema, entries[i]).Some? then
      Some(seq(|entries|, i requires 0 <= i < |entries| => TransformEntry(schema, entries[i]).value))
    else None
  }

  /** The transform works entry by entry: it distributes over `+`. */
  lemma SchemaTransformerAppend(schema: Json -> Option<Json>, a: seq<Json>, b: seq<Json>)
    ensures SchemaTransformer(schema, a + b).Some? <==>
      SchemaTransformer(schema, a).Some? && SchemaTransformer(schema, b).Some?
    ensures SchemaTransformer(schema, a + b).Some? ==>
      SchemaTransformer(schema, a + b).value == SchemaTransformer(schema, a).value + SchemaTransformer(schema, b).value
  {
    assert forall i :: 0 <= i < |a| ==> (a + b)[i] == a[i];
    assert forall i :: 0 <= i < |b| ==> (a + b)[|a| + i] == b[i];
  }

  /**
   * With a schema that accepts everything as it is, each entry is rebuilt
   * from its own properties: objects stay as they are, any other non-null
   * value becomes an object, and a null entry makes the transform throw.
   */
  lemma IdentitySchema(schema: Json -> Option<Json>, entries: seq<Json>)
    requires forall x :: schema(x) == Some(x)
    ensures SchemaTransformer(schema, entries).Some? <==> forall i :: 0 <= i < |entries| ==> !entries[i].JNull?
    ensures SchemaTransformer(schema, entries).Some? ==>
      forall i :: 0 <= i < |entries| ==> SchemaTransformer(schema, entries).value[i] == JObj(Record(entries[i]))
    ensures (forall i :: 0 <= i < |entries| ==> entries[i].JObj?) ==> SchemaTransformer(schema, entries) == Some(entries)
  {
    forall i | 0 <= i < |entries| && !entries[i].JNull?
      ensures TransformEntry(schema, entries[i]) == Some(JObj(Record(entries[i])))
    {
      DeepMergeSelf(JObj(Record(entries[i])));
    }
    if forall i :: 0 <= i < |entries| ==> entries[i].JObj? {
      assert SchemaTransformer(schema, entries).value == entries;
    }
  }

  /**
   * A schema that accepts only objects, each as itself, leaves every entry
   * as it was: the rejected ones pass through, the accepted ones merge with
   * themselves.
   */
  lemma IdentityOnAccepted(schema: Json -> Option<Json>, entries: seq<Json>)
    requires forall i :: 0 <= i < |entries| ==>
      schema(entries[i]).None? || (entries[i].JObj? && schema(entries[i]) == Some(entries[i]))
    ensures SchemaTransformer(schema, entries) == Some(entries)
  {
    forall i | 0 <= i < |entries|
      ensures TransformEntry(schema, entries[i]) == Some(entries[i])
    {
      DeepMergeSelf(entries[i]);
    }
    assert SchemaTransformer(schema, entries).value == entries;
  }

  /** The outputs of the accepted entries, in entry order. */
  function Accepted<T>(schema: Json -> Option<T>, entries: seq<Json>): (r: seq<T>)
    ensures |r| <= |entries|
    ensures forall y :: y in r ==> exists x :: x in entries && schema(x) == Some(y)
  {
    if entries == [] then []
    else
      var rest := Accepted(schema, entries[1..]);
      assert forall x :: x in entries[1..] ==> x in entries;
      match schema(entries[0])
      case Some(y) => [y] + rest
      case None => rest
  }

  /** Filtering keeps entry order: it distributes over `+`. */
  lemma {:induction false} AcceptedAppend<T>(schema: Json -> Option<T>, a: seq<Json>, b: seq<Json>)
    ensures Accepted(schema, a + b) == Accepted(schema, a) + Accepted(schema, b)
  {
    if a == [] {
      assert a + b == b;
    } else {
      assert (a + b)[0] == a[0] && (a + b)[1..] == a[1..] + b;
      AcceptedAppend(schema, a[1..], b);
    }
  }

  /** When every entry is accepted, every output is kept, in order. */
  lemma {:induction false} AcceptedAll<T>(schema: Json -> Option<T>, entries: seq<Json>)
    requires forall i :: 0 <= i < |entries| ==> schema(entries[i]).Some?
    ensures |Accepted(schema, entries)| == |entries|
    ensures forall i :: 0 <= i < |entries| ==> Accepted(schema, entries)[i] == schema(entries[i]).value
  {
    if entries != [] {
      AcceptedAll(schema, entries[1..]);
    }
  }

  /** Rejected entries are dropped without an error. */
  lemma {:induction false} AcceptedNone<T>(schema: Json -> Option<T>, entries: seq<Json>)
    requires forall i :: 0 <= i < |entries| ==> schema(entries[i]).None?
    ensures Accepted(schema, entries) == []
  {
    if entries != [] {
      AcceptedNone(schema, entries[1..]);
    }
  }

  /**
   * `schemaFilter(schema)(text)`: None when `JSON.parse` throws; otherwise
   * the outputs of the accepted entries.
   */
  function SchemaFilter<T>(schema: Json -> Option<T>, parse: string -> Option<Json>, text: string): (r: Option<seq<T>>)
    ensures r.Some? <==> parse(text).Some?
    ensures r.Some? ==> r.value == Accepted(schema, Parse.Normalise(parse(text).value))
  {
    match Parse.ParseCataJson(parse, text)
    case None => None
    case Some(entries) => Some(Accepted(schema, entries))
  }
}

=== FILE: unit_format.dfy ===
/**
 * The shared shape of a unit value, `"<magnitude> <unit>"`, the regex
 * validators `^\d+ (u1|u2|...)$` written as predicates, and the reading of a
 * unit string back into a quantity of the smallest unit of its kind.
 */
module UnitFormat {
  import opened Wrappers
  import opened Decimal

  /** `${m} ${unit}` */
  function Render(m: nat, unit: string): string
  {
    NatToString(m) + " " + unit
  }

  /** The validator `^\d+ (u1|u2|...)$` over the unit alternatives `units`. */
  predicate Accepts(s: string, units: set<string>)
  {
    exists i :: 0 < i < |s| && s[i] == ' ' && AllDigits(s[..i]) && s[i + 1..] in units
  }

  /** Index of the first space, or |s| when there is none. */
  function FirstSpace(s: string): (i: nat)
    ensures i <= |s|
    ensures i < |s| ==> s[i] == ' '
    ensures forall j :: 0 <= j < i ==> s[j] != ' '
  {
    if s == [] then 0 else if s[0] == ' ' then 0 else 1 + FirstSpace(s[1..])
  }

  /** Splits `"<digits> <unit>"` into its magnitude and unit. */
  function ParseTagged(s: string): Option<(nat, string)>
  {
    var i := FirstSpace(s);
    if 0 < i < |s| && AllDigits(s[..i]) then Some((DigitsValue(s[..i]), s[i + 1..])) else None
  }

  /**
   * The quantity a unit string denotes, in the smallest unit of its kind,
   * given each unit's size in that smallest unit.
   */
  function Quantity(s: string, factors: map<string, nat>): Option<nat>
  {
    match ParseTagged(s)
    case Some((m, u)) => if u in factors then Some(m * factors[u]) else None
    case None => None
  }

  /** A rendered value passes the validator of any unit set holding its unit. */
  lemma RenderAccepted(m: nat, unit: string, units: set<string>)
    requires unit in units
    ensures Accepts(Render(m, unit), units)
  {
    var d := NatToString(m);
    var s := Render(m, unit);
    assert s[..|d|] == d;
    assert s[|d| + 1..] == unit;
  }

  /** Reading a rendered value gives back its magnitude and unit. */
  lemma ParseRender(m: nat, unit: string)
    ensures ParseTagged(Render(m, unit)) == Some((m, unit))
  {
    var d := NatToString(m);
    var s := Render(m, unit);
    assert s[..|d|] == d;
    assert s[|d| + 1..] == unit;
    assert s[|d|] == ' ';
    assert forall j :: 0 <= j < |d| ==> s[j] == d[j] && IsDigit(d[j]);
    FirstSpaceAt(s, |d|);
    DigitsValueOfNatToString(m);
  }

  lemma FirstSpaceAt(s: string, i: nat)
    requires i < |s| && s[i] == ' '
    requires forall j :: 0 <= j < i ==> s[j] != ' '
    ensures FirstSpace(s) == i
  {
    if i > 0 {
      FirstSpaceAt(s[1..], i - 1);
    }
  }

  /** The validator holds exactly when the string parses with a listed unit. */
  lemma AcceptsIffParses(s: string, units: set<string>)
    ensures Accepts(s, units) <==> ParseTagged(s).Some? && ParseTagged(s).value.1 in units
  {
    if Accepts(s, units) {
      var i :| 0 < i < |s| && s[i] == ' ' && AllDigits(s[..i]) && s[i + 1..] in units;
      forall j | 0 <= j < i ensures s[j] != ' ' {
        assert s[..i][j] == s[j];
      }
      FirstSpaceAt(s, i);
    }
    if ParseTagged(s).Some? && ParseTagged(s).value.1 in units {
      var i := FirstSpace(s);
      assert 0 < i < |s| && s[i] == ' ' && AllDigits(s[..i]) && s[i + 1..] in units;
    }
  }

  /** A rendered value denotes its magnitude times the size of its unit. */
  lemma QuantityOfRender(m: nat, unit: string, factors: map<string, nat>)
    requires unit in factors
    ensures Quantity(Render(m, unit), factors) == Some(m * factors[unit])
  {
    ParseRender(m, unit);
  }

  /** A string with a leading sign fails every `^\d+ ...$` validator. */
  lemma SignedRejected(s: string, units: set<string>)
    requires |s| > 0 && s[0] == '-'
    ensures !Accepts(s, units)
  {
  }

  /** Zero is written as the single digit 0. */
  lemma RenderZero(unit: string)
    ensures Render(0, unit) == "0 " + unit
  {
    assert NatToString(0) == "0";
  }

  /** A magnitude that divides evenly scales back to the whole quantity. */
  lemma ExactDivision(q: nat, d: nat, f: nat)
    requires d > 0 && q % d == 0
    ensures (q / d) * (d * f) == q * f
  {
    var k := q / d;
    assert q == d * k;
    assert k * (d * f) == (d * k) * f;
  }

  /** Everything a caller needs to know about a rendered value. */
  lemma RenderFacts(m: nat, unit: string, units: set<string>, factors: map<string, nat>)
    requires unit in units && unit in factors
    ensures Accepts(Render(m, unit), units)
    ensures ParseTagged(Render(m, unit)) == Some((m, unit))
    ensures Quantity(Render(m, unit), factors) == Some(m * factors[unit])
  {
    RenderAccepted(m, unit, units);
    ParseRender(m, unit);
  }

  /**
   * The canonical tier of a magnitude: the largest tier whose ratio evenly
   * divides it, the smallest tier when none does, and the smallest tier for
   * zero.  `ratios` lists the tiers smallest first.
   */
  function CanonicalTier(m: nat, ratios: seq<nat>): (i: nat)
    requires |ratios| > 0
    requires forall j :: 0 <= j < |ratios| ==> ratios[j] > 0
    ensures i < |ratios|
    ensures m == 0 ==> i == 0
    ensures i > 0 ==> m % ratios[i] == 0
    ensures m != 0 ==> forall j :: i < j < |ratios| ==> m % ratios[j] != 0
  {
    if m == 0 || |ratios| == 1 then 0
    else if m % ratios[|ratios| - 1] == 0 then |ratios| - 1
    else CanonicalTier(m, ratios[..|ratios| - 1])
  }

  /** The canonical string form of a magnitude over a tier table. */
  function Canonical(m: nat, units: seq<string>, ratios: seq<nat>): string
    requires |units| == |ratios| > 0
    requires forall j :: 0 <= j < |ratios| ==> ratios[j] > 0
  {
    var i := CanonicalTier(m, ratios);
    Render(m / ratios[i], units[i])
  }
}

=== FILE: volume.dfy ===
/** units/volume.ts: legacy volume units (250 ml each) to a volume string. */
module Volume {
  import opened Wrappers
  import opened UnitFormat
  import Decimal

  /** The unit alternatives of the `volume` validator. */
  const Units: set<string> := {"ml", "L"}

  /** Size of each volume unit in millilitres. */
  const Millilitres: map<string, nat> := map["ml" := 1, "L" := 1000]

  /** The `volume` validator, `^\d+ (ml|L)$`. */
  predicate IsVolume(s: string)
  {
    Accepts(s, Units)
  }
  /** The validator accepts exactly digits, one space and a volume unit. */
  lemma IsVolumeIffParses(s: string)
    ensures IsVolume(s) <==> ParseTagged(s).Some? && ParseTagged(s).value.1 in Units
  {
    AcceptsIffParses(s, Units);
  }


  /**
   * `fromLegacyVolume`: zero is "0 ml"; otherwise whole litres when the
   * millilitre amount 250·x is a multiple of 1000, millilitres else.
   */
  function FromLegacyVolume(x: nat): (r: string)
    ensures IsVolume(r)
    ensures Quantity(r, Millilitres) == Some(250 * x)
    ensures x == 0 ==> r == "0 ml"
    ensures x != 0 && x % 4 == 0 ==> ParseTagged(r) == Some((x / 4, "L"))
    ensures x % 4 != 0 ==> ParseTagged(r) == Some((250 * x, "ml"))
  {
    var ml := 250 * x;
    assert Millilitres["ml"] == 1 && Millilitres["L"] == 1000;
    if ml == 0 then
      RenderFacts(0, "ml", Units, Millilitres);
      ZeroMillilitres();
      Render(0, "ml")
    else if ml % 1000 == 0 then
      MultipleOfLitre(x);
      ExactDivision(ml, 1000, 1);
      RenderFacts(ml / 1000, "L", Units, Millilitres);
      Render(ml / 1000, "L")
    else
      MultipleOfLitre(x);
      RenderFacts(ml, "ml", Units, Millilitres);
      Render(ml, "ml")
  }

  lemma ZeroMillilitres()
    ensures Render(0, "ml") == "0 ml"
  {
    RenderZero("ml");
  }

  /** 250·x is a whole number of litres exactly when x is a multiple of 4. */
  lemma MultipleOfLitre(x: nat)
    ensures (250 * x) % 1000 == 0 <==> x % 4 == 0
    ensures x % 4 == 0 ==> (250 * x) / 1000 == x / 4
  {
    var q, r := x / 4, x % 4;
    assert x == 4 * q + r;
    assert 250 * x == 1000 * q + 250 * r;
  }

  /** Zero has its own case, in millilitres. */
  lemma ExampleZero()
    ensures FromLegacyVolume(0) == "0 ml"
  {
    assert FromLegacyVolume(0) == Render(0, "ml");
  }

  /** Four legacy units are one litre. */
  lemma ExampleLitre()
    ensures FromLegacyVolume(4) == "1 L"
  {
    assert FromLegacyVolume(4) == Render(1, "L");
  }

  /** Three legacy units are not whole litres. */
  lemma ExampleMillilitres()
    ensures FromLegacyVolume(3) == "750 ml"
  {
    assert 250 * 3 == 750 && 750 % 1000 != 0;
    assert FromLegacyVolume(3) == Render(750, "ml");
    Decimal.Writes750();
  }

  /** The result is the canonical form of 250·x over the tiers ml, L. */
  lemma IsCanonical(x: nat)
    ensures FromLegacyVolume(x) == Canonical(250 * x, ["ml", "L"], [1, 1000])
  {
    var ml := 250 * x;
    if ml == 0 {
      CanonicalTier0(ml);
    } else if ml % 1000 == 0 {
      assert CanonicalTier(ml, [1, 1000]) == 1;
    } else {
      CanonicalTier0(ml);
    }
  }

  /** Without a whole number of litres, or at zero, the tier is millilitres. */
  lemma CanonicalTier0(ml: nat)
    requires ml == 0 || ml % 1000 != 0
    ensures Canonical(ml, ["ml", "L"], [1, 1000]) == Render(ml, "ml")
  {
    var ratios: seq<nat> := [1, 1000];
    assert ratios[..1] == [1];
    var units := ["ml", "L"];
    assert CanonicalTier(ml, ratios) == 0;
    assert ml / ratios[0] == ml && units[0] == "ml";
    assert Canonical(ml, units, ratios) == Render(ml / ratios[0], units[0]);
  }
}

=== FILE: weight.dfy ===
/** units/weight.ts: legacy grams to a weight string. */
module Weight {
  import opened Wrappers
  import opened UnitFormat
  import Decimal

  /** The unit alternatives of the `weight` validator. */
  const Units: set<string> := {"mg", "g", "kg"}

  /** Size of each weight unit in milligrams. */
  const Milligrams: map<string, nat> := map["mg" := 1, "g" := 1000, "kg" := 1000000]

  /** The `weight` validator, `^\d+ (m|k)?g$`. */
  predicate IsWeight(s: string)
  {
    Accepts(s, Units)
  }
  /** The validator accepts exactly digits, one space and a weight unit. */
  lemma IsWeightIffParses(s: string)
    ensures IsWeight(s) <==> ParseTagged(s).Some? && ParseTagged(s).value.1 in Units
  {
    AcceptsIffParses(s, Units);
  }


  /** `fromLegacyWeight`: one legacy unit is one gram; gives g or kg. */
  function FromLegacyWeight(g: nat): (r: string)
    ensures IsWeight(r)
    ensures Quantity(r, Milligrams) == Some(g * 1000)
    ensures g % 1000 == 0 ==> ParseTagged(r) == Some((g / 1000, "kg"))
    ensures g % 1000 != 0 ==> ParseTagged(r) == Some((g, "g"))
  {
    if g % 1000 == 0 then
      ExactDivision(g, 1000, 1000);
      RenderFacts(g / 1000, "kg", Units, Milligrams);
      Render(g / 1000, "kg")
    else
      RenderFacts(g, "g", Units, Milligrams);
      Render(g, "g")
  }

  /** Whole kilograms are written in kg. */
  lemma ExampleKilograms()
    ensures FromLegacyWeight(2000) == "2 kg"
  {
    assert FromLegacyWeight(2000) == Render(2, "kg");
  }

  /** A weight that is not whole kilograms is written in grams. */
  lemma ExampleGrams()
    ensures FromLegacyWeight(1500) == "1500 g"
  {
    assert FromLegacyWeight(1500) == Render(1500, "g");
    Decimal.Writes1500();
  }

  /** Zero is a multiple of 1000, so it takes the kg branch. */
  lemma ExampleZero()
    ensures FromLegacyWeight(0) == "0 kg"
  {
    assert FromLegacyWeight(0) == Render(0, "kg");
  }

  /**
   * Away from zero the result is the canonical form over the tiers g, kg;
   * at zero the kg branch is taken, where the canonical form is "0 g".
   */
  lemma IsCanonicalAwayFromZero(g: nat)
    ensures g != 0 ==> FromLegacyWeight(g) == Canonical(g, ["g", "kg"], [1, 1000])
    ensures Canonical(0, ["g", "kg"], [1, 1000]) == "0 g" != FromLegacyWeight(0)
  {
    var i := CanonicalTier(g, [1, 1000]);
    if g != 0 {
      assert i == 1 <==> g % 1000 == 0;
    }
  }
}

=== FILE: wrappers.dfy ===
/** Option and Result, the error-carrying values used across the model. */
module Wrappers {

  datatype Option<+T> = None | Some(value: T)

  datatype Result<+T, +E> = Ok(value: T) | Err(error: E)
}
